=== FILE: README.md ===
# To-do list app: task list, settings page and task service

This project models the three parts of the To-Do List App that hold logic, and proves properties of the model.

- **The task list page** (`frontend/src/pages/Tasks.jsx`), module `Tasks`. The page keeps an ordered list of task records. Every user action replaces that list with a new one: add (prepend a trimmed, non-blank title), toggle completed, toggle important (which also sets the priority to "medium" if it was "high" and to "high" otherwise), and delete. What the list shows is derived in two stages: a status tab filter, then a case-insensitive search on the title. Four badge counts are derived from the same list. The page state is the `TasksView` record. `Step` dispatches every user action to its handler, and that includes the context menu, which remembers a snapshot of the task it was opened on.
- **The settings page** (`frontend/src/pages/Settings.jsx`), module `Settings`. There are four settings records (notifications, theme, security, account). Each is a JavaScript object that the page replaces with one computed key changed, so the model holds it as a `map<string, Value>`. The page also has a reset to fixed defaults behind a confirmation dialog, a message bar (snackbar), and the list of active sessions: terminate one, or terminate all but the current one. `Offered` describes which controls the rendered page offers in a given state. It covers:
  - the five tabs;
  - the listed choices of every selector and radio group;
  - the value a switch's event carries (the negation of the one it shows);
  - the disabled switches and buttons;
  - the modal reset dialog: while it is open only its buttons and the snackbar's close button work, and its buttons exist only then;
  - the snackbar's close button, which exists only while the snackbar is shown.

  What it leaves out is listed under "## Left out".
- **The back end's task service** (`backend/.../service/TaskService.java`), module `TaskService`. The class `TaskStore` holds the user repository (`email -> User`) and the task repository (`id -> Task`) as maps. Its methods run the service's checks in the source's order: the user must exist, then the task must exist, then the task must belong to that user. They fill defaults, and they change the task map only on success.

Supporting modules: `Wrappers` (Option and Result), `Seqs` (`Filter`, the model of `Array.prototype.filter`, with its order and membership lemmas) and `Text` (`trim`, `toLowerCase` and `includes`).

Two facts about the code are worth knowing:
- Importance and priority are independent. The initial data holds an important task with priority "low" (`ImportanceNotCoupledToPriority`).
- The code takes ids from `Date.now()` and never checks them. Uniqueness is preserved whenever the added id is fresh (`StepKeepsUniqueIds`).

## Model

| member | source | states |
|---|---|---|
| Tasks.InitialView | frontend/src/pages/Tasks.jsx:66-102 | The page starts with the menu closed and nothing selected. Its three tasks have distinct ids, and the badges read all 3, active 2, completed 1, important 2 |
| Tasks.FilteredTasks | frontend/src/pages/Tasks.jsx:105-110 | Every task the tab filter returns is one the active tab shows |
| Tasks.TabFilterExact | frontend/src/pages/Tasks.jsx:105-110 | The tab filter keeps exactly the tasks with `!completed` on "active", `completed` on "completed", `important` on "important", and all tasks on any other tab. Each kept task keeps its number of occurrences, and the result is an order-preserving subsequence of the store |
| Tasks.SearchedTasks | frontend/src/pages/Tasks.jsx:113-115 | Every task the search returns has a lower-cased title that contains the lower-cased query |
| Tasks.SearchExact | frontend/src/pages/Tasks.jsx:113-115 | The search keeps exactly the tab-filtered tasks whose lower-cased title has an occurrence of the lower-cased query, each with its number of occurrences, in order. The empty query keeps them all |
| Tasks.VisibleExact | frontend/src/pages/Tasks.jsx:104-115 | The displayed list is exactly the stored tasks that pass both the tab and the search, each with its number of occurrences, as a subsequence of the store |
| Tasks.TabScenario | frontend/src/pages/Tasks.jsx:105-110 | With one open and one completed task, "completed" shows only the completed one, "active" only the open one, and "all" both in order |
| Tasks.SearchScenario | frontend/src/pages/Tasks.jsx:113-115 | Among "Write report" and "Buy milk", both "rep" and "REP" find only "Write report" |
| Tasks.CountTasks | frontend/src/pages/Tasks.jsx:184-189 | `all` is the store's length. Each bucket count equals the length of the matching tab filter. `active + completed == all` |
| Tasks.AddTask | frontend/src/pages/Tasks.jsx:118-134 | A blank (all-whitespace) input leaves the state unchanged. Otherwise the list grows by one, index 0 holds the new task (trimmed title, not completed, not important, "medium", no due date), the old list follows unchanged, and the input box is cleared |
| Tasks.AddedTitleTrimmed | frontend/src/pages/Tasks.jsx:120-124 | The stored title of an added task is non-empty, neither starts nor ends with whitespace, and is unchanged by trimming again |
| Tasks.ToggleTask | frontend/src/pages/Tasks.jsx:137-141 | The list keeps its length |
| Tasks.ToggleTaskEffect | frontend/src/pages/Tasks.jsx:137-141 | `completed` flips on exactly the tasks with that id, and every other field and task stays as it was. An absent id is a no-op, and two toggles restore the list |
| Tasks.ToggleImportant | frontend/src/pages/Tasks.jsx:144-155 | The list keeps its length |
| Tasks.ToggleImportantEffect | frontend/src/pages/Tasks.jsx:144-155 | `important` flips on exactly the tasks with that id. Their priority becomes "medium" if it was "high" and "high" otherwise. Nothing else changes, and an absent id is a no-op |
| Tasks.ToggleImportantTwice | frontend/src/pages/Tasks.jsx:144-155 | Two toggles always restore `important`. They restore the list exactly when every task with that id had priority "high" or "medium" |
| Tasks.ImportanceNotCoupledToPriority | frontend/src/pages/Tasks.jsx:90-97 | The initial task 3 is important with priority "low". One toggle makes it unimportant with priority "high", and two leave it at "medium" |
| Tasks.RemoveTask | frontend/src/pages/Tasks.jsx:179 | No remaining task has the deleted id |
| Tasks.RemoveTaskEffect | frontend/src/pages/Tasks.jsx:178-181 | Delete removes exactly the tasks with that id and keeps the rest in order, each with its number of occurrences. An absent id is a no-op, and deleting again changes nothing |
| Tasks.DeleteTask | frontend/src/pages/Tasks.jsx:178-181 | The list loses that id and the menu is closed with no selection. Tab, query and input box are kept |
| Tasks.HandleMenuClick | frontend/src/pages/Tasks.jsx:158-161 | The menu opens with a snapshot of the task as its selection. The list, tab, query and input box are unchanged |
| Tasks.HandleMenuClose | frontend/src/pages/Tasks.jsx:163-166 | The menu closes with no selection. The list, tab, query and input box are unchanged |
| Tasks.Step | frontend/src/pages/Tasks.jsx:224-534 | Only adding, the two checkbox and star buttons, and a menu item with a task selected change the list. Only adding and deleting change its length. The menu's toggle items act on the selected snapshot's id, and otherwise only close the menu. The delete item acts only when a task is selected, removing that id, and otherwise does nothing |
| Tasks.StepKeepsMenuConsistent | frontend/src/pages/Tasks.jsx:504-534 | Under every user action, the menu is open exactly when a task is selected, and each menu item that acts closes the menu |
| Tasks.FilterKeepsUniqueIds | frontend/src/pages/Tasks.jsx:179 | Filtering a list with distinct ids leaves distinct ids, all taken from the original list |
| Tasks.StepKeepsUniqueIds | frontend/src/pages/Tasks.jsx:118-181 | If an added task's id is fresh, every user action keeps the stored ids pairwise distinct |
| Tasks.PriorityChip | frontend/src/pages/Tasks.jsx:53-62 | "high" gives High/error, "medium" gives Medium/warning and "low" gives Low/primary. The label is always High, Medium or Low, and it is "Low" exactly when the priority is neither "high" nor "medium". The neutral colour marks exactly the values other than the three known priorities |
| Text.TrimStart | frontend/src/pages/Tasks.jsx:120 | The result is the suffix left after dropping only whitespace, and it does not start with whitespace |
| Text.TrimEnd | frontend/src/pages/Tasks.jsx:120 | The result is the prefix left after dropping only whitespace, and it does not end with whitespace |
| Text.Trim | frontend/src/pages/Tasks.jsx:120 | The result is empty exactly when the input is all whitespace. Otherwise it neither starts nor ends with whitespace |
| Text.TrimIsSlice | frontend/src/pages/Tasks.jsx:124 | Trimming removes only whitespace, and only at the two ends: the result is a contiguous slice of the input |
| Text.TrimIdempotent | frontend/src/pages/Tasks.jsx:120-124 | Trimming twice is trimming once |
| Text.ToLower | frontend/src/pages/Tasks.jsx:114 | The result keeps the length, and each character is its ASCII lower case |
| Text.ToLowerIdempotent | frontend/src/pages/Tasks.jsx:114 | Lower-casing twice is lower-casing once |
| Text.IncludesIff | frontend/src/pages/Tasks.jsx:114 | `includes` holds exactly when the needle occurs at some index of the haystack |
| Text.IncludesEmpty | frontend/src/pages/Tasks.jsx:114 | Every string includes the empty string |
| Settings.InitialView | frontend/src/pages/Settings.jsx:81-117 | The page starts on the first tab with no dialog and no message open. The primary colour is the UI theme's. The three initial sessions have distinct ids, and terminating the others is enabled |
| Settings.ConfirmResetSettings | frontend/src/pages/Settings.jsx:166-204 | All four records are set to the defaults. The dialog closes, the "info" message "Settings have been reset to default values." opens, and tab and sessions are kept |
| Settings.ConfirmResetIdempotent | frontend/src/pages/Settings.jsx:166-204 | Resetting twice is resetting once |
| Settings.ResetMatchesInitialExceptPrimaryColor | frontend/src/pages/Settings.jsx:86-117 | The reset defaults equal the initial records in every key except `primaryColor`. The theme records agree exactly when the theme's colour is "#1976d2" |
| Settings.SetKey | frontend/src/pages/Settings.jsx:124-127 | Object spread with a computed key: the key gets the new value, every other key keeps its value, and an unknown key is added |
| Settings.HandleNotificationChange | frontend/src/pages/Settings.jsx:123-128 | Only `setting` is replaced, by the switch's `checked`. The rest of the page is unchanged |
| Settings.HandleThemeChange | frontend/src/pages/Settings.jsx:130-136 | Only `setting` is replaced, by `checked` for a checkbox and by `value` otherwise. The rest of the page is unchanged |
| Settings.HandleSecurityChange | frontend/src/pages/Settings.jsx:138-144 | Only `setting` is replaced, by `checked` for a checkbox and by `value` otherwise. The rest of the page is unchanged |
| Settings.HandleAccountChange | frontend/src/pages/Settings.jsx:146-151 | Only `setting` is replaced, by the selector's `value`. The rest of the page is unchanged |
| Settings.InitialAndResetWellTyped | frontend/src/pages/Settings.jsx:86-117 | The initial state and the state after a reset both give each record exactly its keys, each holding a value of its kind |
| Settings.SetKeyShape | frontend/src/pages/Settings.jsx:123-151 | Setting a known key to a value of its kind keeps a record's shape. Setting an unknown key adds a field |
| Settings.Offered | frontend/src/pages/Settings.jsx:255-1215 | While the reset dialog is open it is modal: only Cancel, Reset-confirm and closing the snackbar are offered. Cancel and Reset-confirm are offered only while the dialog is open, and closing the snackbar only while it is shown. Otherwise only the five tabs and each selector's listed choices are offered. A switch's event carries the negation of the value it shows. The marketing and reminder switches are offered only while e-mail is on, and the sound switch only while push is on. The colour swatches are the six listed. A terminate button stands only beside a non-current session, and terminating the others is offered only while more than one session is listed. With distinct session ids, no offered terminate button names a current session |
| Settings.Step | frontend/src/pages/Settings.jsx:311-1203 | Each settings record changes only under its own controls or a confirmed reset, and the sessions change only under the two terminate buttons. Delete Account only opens a "warning" message |
| Settings.DialogIsModal | frontend/src/pages/Settings.jsx:1181-1203 | While the dialog is open, no offered control changes the sessions or the tab, and only the confirm button changes a setting |
| Settings.ResetNeedsDialog | frontend/src/pages/Settings.jsx:162-208 | While the dialog is closed, an offered control changes a notification, security or account setting only through that setting's own control |
| Settings.OfferedSwitchChanges | frontend/src/pages/Settings.jsx:412-934 | An offered notification, security or dense switch always changes the value it is wired to |
| Settings.OfferedTerminateShrinks | frontend/src/pages/Settings.jsx:662-668 | An offered terminate button always removes at least one session |
| Settings.StepKeepsWellTyped | frontend/src/pages/Settings.jsx:315-934 | Every control the page offers, the primary-colour swatches included, keeps the four records in their initial shape |
| Settings.HandleSaveSettings | frontend/src/pages/Settings.jsx:153-160 | No setting changes, and the "success" message "Settings saved successfully!" opens |
| Settings.HandleResetSettings | frontend/src/pages/Settings.jsx:162-164 | Only the confirmation dialog opens, and no setting changes |
| Settings.HandleCloseDialog | frontend/src/pages/Settings.jsx:206-208 | Only the confirmation dialog closes, and no setting changes |
| Settings.ResetNeedsConfirmation | frontend/src/pages/Settings.jsx:162-208 | Cancelling a requested reset leaves every setting as it was. Confirming it gives the same settings whatever they were before |
| Settings.HandleCloseSnackbar | frontend/src/pages/Settings.jsx:210-212 | The snackbar closes and keeps its message and severity. Nothing else changes |
| Settings.TerminateSession | frontend/src/pages/Settings.jsx:221-228 | No remaining session has that id, and a "success" message opens |
| Settings.TerminateSessionEffect | frontend/src/pages/Settings.jsx:221-222 | Exactly the sessions with that id are removed, and the rest stay in order with their numbers of occurrences. An absent id leaves the list as it was |
| Settings.TerminateOtherSessions | frontend/src/pages/Settings.jsx:707-716 | Only current sessions remain, and a "success" message opens |
| Settings.TerminateOthersEffect | frontend/src/pages/Settings.jsx:707-718 | Exactly the current sessions remain, in order and with their numbers of occurrences, and the action is idempotent. When at most one session was current, the button is disabled afterwards |
| Settings.StepKeepsCurrentSessions | frontend/src/pages/Settings.jsx:660-718 | With distinct session ids, no offered control removes a current session: the current sessions are the same, in order, after every step |
| Settings.StepKeepsUniqueSessionIds | frontend/src/pages/Settings.jsx:221-716 | Every control keeps the session ids pairwise distinct |
| Settings.InitialHasOneCurrentSession | frontend/src/pages/Settings.jsx:215-219 | The initial list has exactly one current session, so terminating all others leaves the button disabled |
| TaskService.Message | backend/src/main/java/com/todoapp/backend/service/TaskService.java:26-65 | Each failure the service raises itself carries its own message: "User not found", "Task not found" or "Unauthorized" |
| TaskService.Authorize | backend/src/main/java/com/todoapp/backend/service/TaskService.java:52-65 | Checks run in the source's order. "User not found" exactly when the e-mail is unknown. "Task not found" exactly when the user exists and the id does not. "Unauthorized" exactly when both exist and the owner's id differs from the caller's. Otherwise it succeeds with the stored task |
| TaskService.OtherOwnersUnaffected | backend/src/main/java/com/todoapp/backend/service/TaskService.java:63-97 | Replacing a task with one of the same owner, or removing it, leaves every other user's tasks as they were |
| TaskService.AddedTaskOwnedByItsOwnerOnly | backend/src/main/java/com/todoapp/backend/service/TaskService.java:46-48 | A task saved under a new id is added to its owner's tasks and to no one else's |
| TaskService.TaskStore.constructor | backend/src/main/java/com/todoapp/backend/service/TaskService.java:20-23 | The service is built over the given repositories, which may already hold tasks: each stored under its own id, with the id generator past every stored id |
| TaskService.TaskStore.GetUserTasks | backend/src/main/java/com/todoapp/backend/service/TaskService.java:25-29 | Fails with "User not found" for an unknown e-mail. Otherwise it returns exactly the stored tasks whose owner is the caller |
| TaskService.TaskStore.CreateTask | backend/src/main/java/com/todoapp/backend/service/TaskService.java:31-49 | The user check comes first, then the due-date parse. On failure nothing is stored. On success a task owned by the caller is stored under a fresh id, with priority MEDIUM when none is given and a due date only when a non-empty one is given |
| TaskService.TaskStore.UpdateTask | backend/src/main/java/com/todoapp/backend/service/TaskService.java:51-79 | Errors follow `Authorize`, then the due-date parse, and the store is unchanged on every failure. On success title and description are always overwritten, priority only when given, and due date only when non-empty. Id, owner and status are kept, and no other task changes |
| TaskService.TaskStore.DeleteTask | backend/src/main/java/com/todoapp/backend/service/TaskService.java:81-98 | Errors follow `Authorize`, and the store is unchanged on failure. On success exactly that id is removed |
| TaskService.TaskStore.UpdateTaskStatus | backend/src/main/java/com/todoapp/backend/service/TaskService.java:100-118 | Errors follow `Authorize`, and the store is unchanged on failure. On success only that task's status changes |

## Left out

- Rendering, component-library styling, layout, icons, tooltips and the list/grid view switch: these are presentation only.
- `handleRefresh` in `Tasks.jsx`: its loading flag and its one-second timer are asynchronous and have no effect on the list. The `error` state is never set.
- Clock readings: the id from `Date.now()` and the `createdAt` timestamp are parameters of `Tasks.AddTask`.
- JavaScript numbers are modelled as unbounded integers, and JavaScript strings as sequences of Unicode scalar values rather than UTF-16 code units.
- Text.ToLower: lower-cases ASCII letters only. The locale-independent full Unicode case mapping of `toLowerCase` is not modelled.
- Tasks.PriorityChip: a priority string that names an inherited property of a plain JavaScript object (such as "constructor") would produce an undefined label in the source. The model gives it the fallback chip. The page itself only ever stores "high", "medium" and "low".
- Settings.HandleNotificationChange: `event.target.checked` is modelled as a boolean field of the event, because the page sends only switch events to this handler.
- `App.jsx`, `Dashboard.jsx`, `Help.jsx`, the team pages, `vite.config.js`, `TeamService.java` and `UserService.java` are not part of this model. They hold routing, configuration, mock data and repository delegation.
- `Task.java` and `User.java` are not part of this model. Priority is assumed to be LOW, MEDIUM or HIGH. A status is an opaque named constant, and a new task's status, which the entity's initialiser decides, is modelled as absent.
- JPA persistence, transactions and the database's id generation are not modelled. The generator is the counter `nextId`, and the only thing assumed of it is that it gives ids not in use.
- `LocalDateTime.parse` is not modelled. It is a parser function passed to `CreateTask` and `UpdateTask`, and a failed parse is the error `UnparsableDueDate`.
- TaskService.TaskStore.UpdateTask: before a failed due-date parse, the source has already changed the fetched entity in memory. The model treats the store as unchanged in that case.
- TaskService.TaskStore.GetUserTasks: it returns the caller's tasks as a map keyed by id, so the order of the repository's list is not modelled.
- A `NullPointerException` from a stored task whose owner or owner id is null is not modelled.
- Settings.Offered: it does not model which tab panel is visible, so it lets every control of every panel act in every state. It also offers choosing the option a selector or radio group already shows; the step then changes nothing. It does not model the snackbar's automatic hiding after six seconds.

=== FILE: Seqs.dfy ===
/** Order-preserving filtering of sequences, the model of JavaScript's Array.prototype.filter. */
module Seqs {

  /** The elements of `s` that satisfy `p`, in the order they have in `s`. */
  function Filter<T>(s: seq<T>, p: T -> bool): (r: seq<T>)
    ensures |r| <= |s|
    ensures forall i :: 0 <= i < |r| ==> p(r[i])
  {
    if s == [] then []
    else if p(s[0]) then [s[0]] + Filter(s[1..], p)
    else Filter(s[1..], p)
  }

  /** `a` can be obtained from `b` by deleting elements, without reordering the rest. */
  ghost predicate IsSubsequence<T>(a: seq<T>, b: seq<T>)
    decreases |b|
  {
    if a == [] then true
    else if b == [] then false
    else (a[0] == b[0] && IsSubsequence(a[1..], b[1..])) || IsSubsequence(a, b[1..])
  }

  /** An element survives the filter exactly when it was there and satisfies the predicate. */
  lemma {:induction false} FilterMembership<T>(s: seq<T>, p: T -> bool, x: T)
    ensures x in Filter(s, p) <==> x in s && p(x)
  {
    if s != [] {
      FilterMembership(s[1..], p, x);
      assert s == [s[0]] + s[1..];
    }
  }

  /** Every element that satisfies the predicate survives as often as it occurs in `s`, and every
      other element disappears. */
  lemma {:induction false} FilterMultiset<T>(s: seq<T>, p: T -> bool)
    ensures forall x :: multiset(Filter(s, p))[x] == if p(x) then multiset(s)[x] else 0
  {
    if s != [] {
      FilterMultiset(s[1..], p);
      assert s == [s[0]] + s[1..];
      assert multiset(s) == multiset{s[0]} + multiset(s[1..]);
      if p(s[0]) {
        assert multiset(Filter(s, p)) == multiset{s[0]} + multiset(Filter(s[1..], p));
      }
    }
  }

  /** The filter is strictly shorter than `s` when some element of `s` fails the predicate. */
  lemma {:induction false} FilterDropsRejected<T>(s: seq<T>, p: T -> bool, k: int)
    requires 0 <= k < |s| && !p(s[k])
    ensures |Filter(s, p)| < |s|
  {
    if k > 0 {
      assert s[1..][k - 1] == s[k];
      FilterDropsRejected(s[1..], p, k - 1);
    }
  }

  /** No two elements of `s` share a key. */
  predicate DistinctBy<T, K(==)>(s: seq<T>, key: T -> K)
  {
    forall i, j :: 0 <= i < j < |s| ==> key(s[i]) != key(s[j])
  }

  /** Filtering never makes two elements share a key. */
  lemma {:induction false} FilterKeepsDistinct<T, K>(s: seq<T>, p: T -> bool, key: T -> K)
    requires DistinctBy(s, key)
    ensures DistinctBy(Filter(s, p), key)
  {
    if s != [] {
      var rest := s[1..];
      assert DistinctBy(rest, key) by {
        forall i, j | 0 <= i < j < |rest| ensures key(rest[i]) != key(rest[j]) {
          assert rest[i] == s[i + 1] && rest[j] == s[j + 1];
        }
      }
      FilterKeepsDistinct(rest, p, key);
      if p(s[0]) {
        var fr := Filter(rest, p);
        var r := [s[0]] + fr;
        assert Filter(s, p) == r;
        forall i, j | 0 <= i < j < |r| ensures key(r[i]) != key(r[j]) {
          if i == 0 {
            assert r[j] == fr[j - 1];
            FilterMembership(rest, p, fr[j - 1]);
            var k :| 0 <= k < |rest| && rest[k] == fr[j - 1];
            assert s[k + 1] == rest[k];
          } else {
            assert r[i] == fr[i - 1] && r[j] == fr[j - 1];
          }
        }
      }
    }
  }

  /** Filtering keeps the relative order of the elements it keeps. */
  lemma {:induction false} FilterIsSubsequence<T>(s: seq<T>, p: T -> bool)
    ensures IsSubsequence(Filter(s, p), s)
  {
    if s != [] {
      FilterIsSubsequence(s[1..], p);
      var r := Filter(s, p);
      if p(s[0]) {
        assert r[0] == s[0] && r[1..] == Filter(s[1..], p);
      } else {
        assert r == Filter(s[1..], p);
        if r != [] {
          assert IsSubsequence(r, s[1..]);
        }
      }
    }
  }

  /** The filter is the identity exactly when every element satisfies the predicate. */
  lemma {:induction false} FilterKeepsAll<T>(s: seq<T>, p: T -> bool)
    ensures Filter(s, p) == s <==> forall i :: 0 <= i < |s| ==> p(s[i])
  {
    if s != [] {
      FilterKeepsAll(s[1..], p);
      if !p(s[0]) {
        assert |Filter(s, p)| < |s| by { assert Filter(s, p) == Filter(s[1..], p); }
      } else if forall i :: 0 <= i < |s| ==> p(s[i]) {
        assert forall i :: 0 <= i < |s[1..]| ==> p(s[1..][i]) by {
          forall i | 0 <= i < |s[1..]| ensures p(s[1..][i]) { assert s[1..][i] == s[i + 1]; }
        }
      } else {
        var j :| 0 <= j < |s| && !p(s[j]);
        assert !p(s[1..][j - 1]);
      }
    }
  }

  /** Filtering twice with the same predicate is the same as filtering once. */
  lemma FilterIdempotent<T>(s: seq<T>, p: T -> bool)
    ensures Filter(Filter(s, p), p) == Filter(s, p)
  {
    FilterKeepsAll(Filter(s, p), p);
  }

  /** Two predicates that agree on the elements of `s` select the same elements. */
  lemma {:induction false} FilterAgree<T>(s: seq<T>, p: T -> bool, q: T -> bool)
    requires forall i :: 0 <= i < |s| ==> p(s[i]) == q(s[i])
    ensures Filter(s, p) == Filter(s, q)
  {
    if s != [] {
      assert forall i :: 0 <= i < |s[1..]| ==> p(s[1..][i]) == q(s[1..][i]) by {
        forall i | 0 <= i < |s[1..]| ensures p(s[1..][i]) == q(s[1..][i]) { assert s[1..][i] == s[i + 1]; }
      }
      FilterAgree(s[1..], p, q);
    }
  }

  /** A predicate and its negation split `s` into two parts whose lengths add up to `|s|`. */
  lemma {:induction false} FilterComplement<T>(s: seq<T>, p: T -> bool, q: T -> bool)
    requires forall i :: 0 <= i < |s| ==> q(s[i]) == !p(s[i])
    ensures |Filter(s, p)| + |Filter(s, q)| == |s|
  {
    if s != [] {
      assert forall i :: 0 <= i < |s[1..]| ==> q(s[1..][i]) == !p(s[1..][i]) by {
        forall i | 0 <= i < |s[1..]| ensures q(s[1..][i]) == !p(s[1..][i]) { assert s[1..][i] == s[i + 1]; }
      }
      FilterComplement(s[1..], p, q);
    }
  }

  /** Filtering first with `p` and then with `q` is filtering with `q` alone when `p` only rejects
      elements that `q` rejects too. */
  lemma {:induction false} FilterThenFilter<T>(s: seq<T>, p: T -> bool, q: T -> bool)
    requires forall i :: 0 <= i < |s| ==> !p(s[i]) ==> !q(s[i])
    ensures Filter(Filter(s, p), q) == Filter(s, q)
  {
    if s != [] {
      assert forall i :: 0 <= i < |s[1..]| ==> !p(s[1..][i]) ==> !q(s[1..][i]) by {
        forall i | 0 <= i < |s[1..]| ensures !p(s[1..][i]) ==> !q(s[1..][i]) { assert s[1..][i] == s[i + 1]; }
      }
      FilterThenFilter(s[1..], p, q);
      if p(s[0]) {
        assert Filter(s, p) == [s[0]] + Filter(s[1..], p);
        assert ([s[0]] + Filter(s[1..], p))[1..] == Filter(s[1..], p);
      }
    }
  }
}

=== FILE: Settings.dfy ===
/** The settings page: four settings records that the page replaces wholesale with one key
    changed, a reset to fixed defaults behind a confirmation dialog, a notification snackbar,
    and the list of active sessions that can be terminated one by one or all but the current one. */
module Settings {
  import opened Seqs

  /** A setting's value as the page stores it: a flag, a text choice or a number of minutes. */
  datatype Value = VBool(b: bool) | VStr(s: string) | VNum(n: int)

  /** A settings record: a JavaScript object, which the page updates with a computed key. */
  type Record = map<string, Value>

  /** The part of a change event the handlers read: the target's `type`, `checked` and `value`. */
  datatype ChangeEvent = ChangeEvent(targetType: string, checked: bool, value: Value)

  /** The message bar at the bottom of the page. */
  datatype Snackbar = Snackbar(open: bool, message: string, severity: string)

  /** One signed-in device. */
  datatype Session = Session(id: int, device: string, location: string, lastActive: string, current: bool)

  /** The page's state. */
  datatype SettingsView = SettingsView(
    tabValue: int,
    openDialog: bool,
    snackbar: Snackbar,
    notification: Record,
    theme: Record,
    security: Record,
    account: Record,
    sessions: seq<Session>)

  // ---------------------------------------------------------------- initial state and defaults

  /** The state the page starts in; the primary colour is read from the UI theme, given here as `themePrimary`.
      No dialog or message is open, the three sessions have distinct ids, and terminating the
      others is enabled. */
  function InitialView(themePrimary: string): (r: SettingsView)
    ensures r.tabValue == 0 && !r.openDialog && !r.snackbar.open
    ensures "primaryColor" in r.theme && r.theme["primaryColor"] == VStr(themePrimary)
    ensures UniqueSessionIds(r.sessions) && !TerminateOthersDisabled(r)
  {
    SettingsView(
      0, false, Snackbar(false, "", "success"),
      map["email" := VBool(true), "push" := VBool(true), "sound" := VBool(true),
          "marketing" := VBool(false), "reminders" := VBool(true), "mentions" := VBool(true)],
      map["mode" := VStr("light"), "primaryColor" := VStr(themePrimary),
          "fontSize" := VStr("medium"), "dense" := VBool(false)],
      map["twoFactorAuth" := VBool(false), "loginAlerts" := VBool(true),
          "showRecentActivity" := VBool(true), "autoLogout" := VNum(30)],
      map["language" := VStr("en"), "timezone" := VStr("UTC"),
          "dateFormat" := VStr("MM/DD/YYYY"), "timeFormat" := VStr("12h")],
      [ Session(1, "Windows 10, Chrome", "San Francisco, CA", "2 hours ago", true),
        Session(2, "iPhone 13, Safari", "New York, NY", "1 day ago", false),
        Session(3, "MacBook Pro, Safari", "London, UK", "1 week ago", false) ])
  }

  /** The values the reset writes into the four records. */
  function DefaultNotification(): Record
  {
    map["email" := VBool(true), "push" := VBool(true), "sound" := VBool(true),
        "marketing" := VBool(false), "reminders" := VBool(true), "mentions" := VBool(true)]
  }

  function DefaultTheme(): Record
  {
    map["mode" := VStr("light"), "primaryColor" := VStr("#1976d2"),
        "fontSize" := VStr("medium"), "dense" := VBool(false)]
  }

  function DefaultSecurity(): Record
  {
    map["twoFactorAuth" := VBool(false), "loginAlerts" := VBool(true),
        "showRecentActivity" := VBool(true), "autoLogout" := VNum(30)]
  }

  function DefaultAccount(): Record
  {
    map["language" := VStr("en"), "timezone" := VStr("UTC"),
        "dateFormat" := VStr("MM/DD/YYYY"), "timeFormat" := VStr("12h")]
  }

  /** Confirming the reset dialog: all four records get their default values, the dialog closes and
      an informational message opens. Tab and sessions are untouched. */
  function ConfirmResetSettings(st: SettingsView): (r: SettingsView)
    ensures !r.openDialog && r.snackbar.open && r.snackbar.severity == "info"
    ensures r.snackbar.message == "Settings have been reset to default values."
    ensures r.tabValue == st.tabValue && r.sessions == st.sessions
    ensures r.notification == DefaultNotification() && r.theme == DefaultTheme()
    ensures r.security == DefaultSecurity() && r.account == DefaultAccount()
  {
    st.(
      notification := DefaultNotification(),
      theme := DefaultTheme(),
      security := DefaultSecurity(),
      account := DefaultAccount(),
      openDialog := false,
      snackbar := Snackbar(true, "Settings have been reset to default values.", "info"))
  }

  /** Resetting twice is resetting once. */
  lemma ConfirmResetIdempotent(st: SettingsView)
    ensures ConfirmResetSettings(ConfirmResetSettings(st)) == ConfirmResetSettings(st)
  {
  }

  /** The reset defaults are the initial values in every setting except the primary colour, which
      the reset writes as "#1976d2" while the initial state takes it from the UI theme: the two
      agree exactly when the theme's colour is "#1976d2". */
  lemma ResetMatchesInitialExceptPrimaryColor(st: SettingsView, themePrimary: string)
    ensures var r := ConfirmResetSettings(st);
      var i := InitialView(themePrimary);
      && r.notification == i.notification
      && r.security == i.security
      && r.account == i.account
      && r.theme.Keys == i.theme.Keys
      && (forall k :: k in r.theme && k != "primaryColor" ==> r.theme[k] == i.theme[k])
      && (r.theme == i.theme <==> themePrimary == "#1976d2")
  {
    var r := ConfirmResetSettings(st);
    var i := InitialView(themePrimary);
    if r.theme == i.theme {
      assert r.theme["primaryColor"] == i.theme["primaryColor"];
    }
  }

  // ---------------------------------------------------------------- single-key handlers

  /** The value a theme or security control reports: `checked` for a checkbox, `value` otherwise. */
  function EventValue(e: ChangeEvent): (v: Value)
    ensures e.targetType == "checkbox" ==> v == VBool(e.checked)
    ensures e.targetType != "checkbox" ==> v == e.value
  {
    if e.targetType == "checkbox" then VBool(e.checked) else e.value
  }

  /** `rec` with key `key` set to `v` and every other key as it was; a key not yet in `rec` is added. */
  function SetKey(rec: Record, key: string, v: Value): (r: Record)
    ensures r.Keys == rec.Keys + {key}
    ensures r[key] == v
    ensures forall k :: k in rec && k != key ==> r[k] == rec[k]
  {
    rec[key := v]
  }

  /** A notification switch: the record with only `setting` replaced, by the switch's `checked`;
      nothing else on the page changes. */
  function HandleNotificationChange(st: SettingsView, setting: string, e: ChangeEvent): (r: SettingsView)
    ensures r.notification.Keys == st.notification.Keys + {setting}
    ensures r.notification[setting] == VBool(e.checked)
    ensures forall k :: k in st.notification && k != setting ==> r.notification[k] == st.notification[k]
    ensures r == st.(notification := r.notification)
  {
    st.(notification := SetKey(st.notification, setting, VBool(e.checked)))
  }

  /** A theme control: the record with only `setting` replaced, by `checked` for a checkbox and by
      `value` otherwise; nothing else on the page changes. */
  function HandleThemeChange(st: SettingsView, setting: string, e: ChangeEvent): (r: SettingsView)
    ensures r.theme.Keys == st.theme.Keys + {setting}
    ensures r.theme[setting] == EventValue(e)
    ensures forall k :: k in st.theme && k != setting ==> r.theme[k] == st.theme[k]
    ensures r == st.(theme := r.theme)
  {
    st.(theme := SetKey(st.theme, setting, EventValue(e)))
  }

  /** A security control: the record with only `setting` replaced, by `checked` for a checkbox and
      by `value` otherwise; nothing else on the page changes. */
  function HandleSecurityChange(st: SettingsView, setting: string, e: ChangeEvent): (r: SettingsView)
    ensures r.security.Keys == st.security.Keys + {setting}
    ensures r.security[setting] == EventValue(e)
    ensures forall k :: k in st.security && k != setting ==> r.security[k] == st.security[k]
    ensures r == st.(security := r.security)
  {
    st.(security := SetKey(st.security, setting, EventValue(e)))
  }

  /** An account selector: the record with only `setting` replaced, by the selector's `value`;
      nothing else on the page changes. */
  function HandleAccountChange(st: SettingsView, setting: string, e: ChangeEvent): (r: SettingsView)
    ensures r.account.Keys == st.account.Keys + {setting}
    ensures r.account[setting] == e.value
    ensures forall k :: k in st.account && k != setting ==> r.account[k] == st.account[k]
    ensures r == st.(account := r.account)
  {
    st.(account := SetKey(st.account, setting, e.value))
  }

  // ---------------------------------------------------------------- the shape of the records

  datatype Kind = BoolKind | StrKind | NumKind

  function KindOf(v: Value): Kind
  {
    match v
    case VBool(_) => BoolKind
    case VStr(_) => StrKind
    case VNum(_) => NumKind
  }

  function NotificationSchema(): map<string, Kind>
  {
    map["email" := BoolKind, "push" := BoolKind, "sound" := BoolKind,
        "marketing" := BoolKind, "reminders" := BoolKind, "mentions" := BoolKind]
  }

  function ThemeSchema(): map<string, Kind>
  {
    map["mode" := StrKind, "primaryColor" := StrKind, "fontSize" := StrKind, "dense" := BoolKind]
  }

  function SecuritySchema(): map<string, Kind>
  {
    map["twoFactorAuth" := BoolKind, "loginAlerts" := BoolKind,
        "showRecentActivity" := BoolKind, "autoLogout" := NumKind]
  }

  function AccountSchema(): map<string, Kind>
  {
    map["language" := StrKind, "timezone" := StrKind, "dateFormat" := StrKind, "timeFormat" := StrKind]
  }

  /** `rec` has exactly the keys of `schema`, each holding a value of the kind the schema names. */
  predicate Conforms(rec: Record, schema: map<string, Kind>)
  {
    rec.Keys == schema.Keys && forall k :: k in rec ==> KindOf(rec[k]) == schema[k]
  }

  /** All four records have the shape of the initial state. */
  predicate WellTyped(st: SettingsView)
  {
    && Conforms(st.notification, NotificationSchema())
    && Conforms(st.theme, ThemeSchema())
    && Conforms(st.security, SecuritySchema())
    && Conforms(st.account, AccountSchema())
  }

  lemma NotificationDefaultsConform()
    ensures Conforms(DefaultNotification(), NotificationSchema())
  {
    assert DefaultNotification().Keys == NotificationSchema().Keys;
  }

  lemma ThemeDefaultsConform(primary: string)
    ensures Conforms(DefaultTheme(), ThemeSchema())
    ensures Conforms(DefaultTheme()["primaryColor" := VStr(primary)], ThemeSchema())
  {
    assert DefaultTheme().Keys == ThemeSchema().Keys;
  }

  lemma SecurityDefaultsConform()
    ensures Conforms(DefaultSecurity(), SecuritySchema())
  {
    assert DefaultSecurity().Keys == SecuritySchema().Keys;
  }

  lemma AccountDefaultsConform()
    ensures Conforms(DefaultAccount(), AccountSchema())
  {
    assert DefaultAccount().Keys == AccountSchema().Keys;
  }

  /** Both the initial state and the state after a confirmed reset have the expected shape. */
  lemma InitialAndResetWellTyped(themePrimary: string, st: SettingsView)
    ensures WellTyped(InitialView(themePrimary))
    ensures WellTyped(ConfirmResetSettings(st))
  {
    NotificationDefaultsConform();
    ThemeDefaultsConform(themePrimary);
    SecurityDefaultsConform();
    AccountDefaultsConform();
    ResetMatchesInitialExceptPrimaryColor(st, themePrimary);
    assert InitialView(themePrimary).theme == DefaultTheme()["primaryColor" := VStr(themePrimary)];
  }

  /** Setting a known key to a value of its kind keeps a record's shape; setting an unknown key
      adds a field, so the record no longer has the shape. */
  lemma SetKeyShape(rec: Record, schema: map<string, Kind>, key: string, v: Value)
    requires Conforms(rec, schema)
    ensures key in schema && KindOf(v) == schema[key] ==> Conforms(SetKey(rec, key, v), schema)
    ensures key !in schema ==> !Conforms(SetKey(rec, key, v), schema)
  {
  }

  // ---------------------------------------------------------------- dialog and snackbar

  /** The save button: settings stay as they are and a success message opens. */
  function HandleSaveSettings(st: SettingsView): (r: SettingsView)
    ensures r == st.(snackbar := r.snackbar) && r.snackbar.open && r.snackbar.severity == "success"
    ensures r.snackbar.message == "Settings saved successfully!"
  {
    st.(snackbar := Snackbar(true, "Settings saved successfully!", "success"))
  }

  /** The reset button only asks for confirmation. */
  function HandleResetSettings(st: SettingsView): (r: SettingsView)
    ensures r == st.(openDialog := true)
  {
    st.(openDialog := true)
  }

  /** Cancelling the reset dialog. */
  function HandleCloseDialog(st: SettingsView): (r: SettingsView)
    ensures r == st.(openDialog := false)
  {
    st.(openDialog := false)
  }

  /** Closing the snackbar hides it and keeps its message and severity. */
  function HandleCloseSnackbar(st: SettingsView): (r: SettingsView)
    ensures !r.snackbar.open
    ensures r.snackbar.message == st.snackbar.message && r.snackbar.severity == st.snackbar.severity
    ensures r == st.(snackbar := r.snackbar)
  {
    st.(snackbar := st.snackbar.(open := false))
  }

  /** Asking for a reset and cancelling it changes no setting; confirming it yields the defaults
      whatever the settings were. */
  lemma ResetNeedsConfirmation(st: SettingsView, other: SettingsView)
    requires other.tabValue == st.tabValue && other.sessions == st.sessions
    ensures HandleCloseDialog(HandleResetSettings(st)) == st.(openDialog := false)
    ensures ConfirmResetSettings(HandleResetSettings(st)) == ConfirmResetSettings(other)
  {
  }

  // ---------------------------------------------------------------- sessions

  function IdDiffers(id: int): Session -> bool { (s: Session) => s.id != id }
  function IsCurrent(): Session -> bool { (s: Session) => s.current }

  /** A terminate button: the sessions with id `id` are removed and a success message opens. */
  function TerminateSession(st: SettingsView, id: int): (r: SettingsView)
    ensures forall i :: 0 <= i < |r.sessions| ==> r.sessions[i].id != id
    ensures r.snackbar == Snackbar(true, "Session terminated successfully", "success")
    ensures r == st.(sessions := r.sessions, snackbar := r.snackbar)
  {
    st.(sessions := Filter(st.sessions, IdDiffers(id)),
        snackbar := Snackbar(true, "Session terminated successfully", "success"))
  }

  /** The terminate-all-others button: only the current sessions stay and a success message opens. */
  function TerminateOtherSessions(st: SettingsView): (r: SettingsView)
    ensures forall i :: 0 <= i < |r.sessions| ==> r.sessions[i].current
    ensures r.snackbar == Snackbar(true, "All other sessions have been terminated", "success")
    ensures r == st.(sessions := r.sessions, snackbar := r.snackbar)
  {
    st.(sessions := Filter(st.sessions, IsCurrent()),
        snackbar := Snackbar(true, "All other sessions have been terminated", "success"))
  }

  /** The terminate-all-others button is disabled while at most one session is listed. */
  predicate TerminateOthersDisabled(st: SettingsView)
  {
    |st.sessions| <= 1
  }

  /** Terminating a session removes exactly the sessions with that id, keeps the others in order,
      and leaves the list as it was for an absent id. */
  lemma TerminateSessionEffect(st: SettingsView, id: int)
    ensures forall s :: s in TerminateSession(st, id).sessions <==> s in st.sessions && s.id != id
    ensures forall s :: multiset(TerminateSession(st, id).sessions)[s] == if s.id != id then multiset(st.sessions)[s] else 0
    ensures IsSubsequence(TerminateSession(st, id).sessions, st.sessions)
    ensures (forall i :: 0 <= i < |st.sessions| ==> st.sessions[i].id != id) ==>
      TerminateSession(st, id).sessions == st.sessions
  {
    forall s ensures s in TerminateSession(st, id).sessions <==> s in st.sessions && s.id != id {
      FilterMembership(st.sessions, IdDiffers(id), s);
    }
    FilterMultiset(st.sessions, IdDiffers(id));
    FilterIsSubsequence(st.sessions, IdDiffers(id));
    FilterKeepsAll(st.sessions, IdDiffers(id));
  }

  /** Terminating all other sessions keeps exactly the current ones in order, is idempotent, and
      leaves the button disabled when at most one session was current. */
  lemma TerminateOthersEffect(st: SettingsView)
    ensures forall s :: s in TerminateOtherSessions(st).sessions <==> s in st.sessions && s.current
    ensures forall s :: multiset(TerminateOtherSessions(st).sessions)[s] == if s.current then multiset(st.sessions)[s] else 0
    ensures IsSubsequence(TerminateOtherSessions(st).sessions, st.sessions)
    ensures TerminateOtherSessions(TerminateOtherSessions(st)).sessions == TerminateOtherSessions(st).sessions
    ensures |Filter(st.sessions, IsCurrent())| <= 1 ==> TerminateOthersDisabled(TerminateOtherSessions(st))
  {
    var r := TerminateOtherSessions(st).sessions;
    assert r == Filter(st.sessions, IsCurrent());
    forall s ensures s in r <==> s in st.sessions && s.current {
      FilterMembership(st.sessions, IsCurrent(), s);
    }
    assert forall s :: multiset(r)[s] == if s.current then multiset(st.sessions)[s] else 0 by {
      FilterMultiset(st.sessions, IsCurrent());
    }
    FilterIsSubsequence(st.sessions, IsCurrent());
    FilterIdempotent(st.sessions, IsCurrent());
  }

  // ---------------------------------------------------------------- the page's controls

  /** Every control of the page. The switches and selectors name the setting they are wired to. */
  datatype Action =
    | ChangeTab(index: int)
    | NotificationSwitch(setting: string, checked: bool)
    | SecuritySwitch(setting: string, checked: bool)
    | AutoLogoutSelect(minutes: int)
    | AccountSelect(setting: string, choice: string)
    | ThemeMode(mode: string)
    | FontSizeSelect(size: string)
    | DenseSwitch(checked: bool)
    | PickPrimaryColor(color: string)
    | RequestAccountDeletion
    | Save
    | Reset
    | CancelReset
    | ConfirmReset
    | CloseSnackbar
    | Terminate(sessionId: int)
    | TerminateOthers

  /** The actions the rendered page can produce in state `st`. While the reset dialog is open it is
      modal: only its two buttons and the snackbar's close button can be used. */
  predicate Offered(st: SettingsView, a: Action)
    ensures UniqueSessionIds(st.sessions) && a.Terminate? && Offered(st, a) ==>
      forall i :: 0 <= i < |st.sessions| && st.sessions[i].id == a.sessionId ==> !st.sessions[i].current
    ensures (a.ConfirmReset? || a.CancelReset?) && Offered(st, a) ==> st.openDialog
    ensures st.openDialog && Offered(st, a) ==> a.ConfirmReset? || a.CancelReset? || a.CloseSnackbar?
  {
    (a.ConfirmReset? || a.CancelReset? || a.CloseSnackbar? || !st.openDialog) && Rendered(st, a)
  }

  /** The controls the page renders enabled in state `st`: there are five tabs; switches and
      selectors exist only for the settings listed, and selectors offer only their listed choices;
      a switch's change event carries the negation of the value it shows; the marketing and reminder
      switches are enabled only while e-mail is on and the sound switch only while push is on; the
      colour swatches are the six listed; the dialog's buttons exist only while the dialog is open
      and the snackbar's close button only while it is shown; a terminate button stands only beside
      a session that is not the current one, and the terminate-all-others button is enabled only
      while more than one session is listed. */
  predicate Rendered(st: SettingsView, a: Action)
  {
    match a
    case ChangeTab(index) => 0 <= index < 5
    case AutoLogoutSelect(minutes) => minutes in {5, 15, 30, 60, 0}
    case ThemeMode(mode) => mode in {"light", "dark", "system"}
    case FontSizeSelect(size) => size in {"small", "medium", "large"}
    case CancelReset => st.openDialog
    case ConfirmReset => st.openDialog
    case CloseSnackbar => st.snackbar.open
    case NotificationSwitch(setting, checked) =>
      && setting in st.notification && st.notification[setting] == VBool(!checked)
      && if setting in {"marketing", "reminders"} then "email" in st.notification && st.notification["email"] == VBool(true)
         else if setting == "sound" then "push" in st.notification && st.notification["push"] == VBool(true)
         else setting in {"email", "push", "mentions"}
    case PickPrimaryColor(color) => color in {"#1976d2", "#9c27b0", "#2e7d32", "#d32f2f", "#ed6c02", "#0288d1"}
    case SecuritySwitch(setting, checked) =>
      && setting in {"loginAlerts", "twoFactorAuth", "showRecentActivity"}
      && setting in st.security && st.security[setting] == VBool(!checked)
    case AccountSelect(setting, choice) =>
      if setting == "language" then choice in {"en", "es", "fr", "de", "zh"}
      else if setting == "timezone" then choice in {"UTC", "PST", "EST", "CET"}
      else if setting == "dateFormat" then choice in {"MM/DD/YYYY", "DD/MM/YYYY", "YYYY-MM-DD"}
      else setting == "timeFormat" && choice in {"12h", "24h"}
    case Terminate(id) => exists i :: 0 <= i < |st.sessions| && st.sessions[i].id == id && !st.sessions[i].current
    case TerminateOthers => !TerminateOthersDisabled(st)
    case DenseSwitch(checked) => "dense" in st.theme && st.theme["dense"] == VBool(!checked)
    case Save => true
    case Reset => true
    case RequestAccountDeletion => true
  }

  /** The page's reaction to one action. Switches deliver checkbox events and selectors deliver
      their value; the theme controls replace the theme record inline. */
  function Step(st: SettingsView, a: Action): (r: SettingsView)
    ensures r.sessions != st.sessions ==> a.Terminate? || a.TerminateOthers?
    ensures r.notification != st.notification ==> a.NotificationSwitch? || a.ConfirmReset?
    ensures r.theme != st.theme ==>
      a.ThemeMode? || a.FontSizeSelect? || a.DenseSwitch? || a.PickPrimaryColor? || a.ConfirmReset?
    ensures r.security != st.security ==> a.SecuritySwitch? || a.AutoLogoutSelect? || a.ConfirmReset?
    ensures r.account != st.account ==> a.AccountSelect? || a.ConfirmReset?
    ensures a.RequestAccountDeletion? ==>
      r.snackbar.open && r.snackbar.severity == "warning" && r == st.(snackbar := r.snackbar)
  {
    match a
    case ChangeTab(index) => st.(tabValue := index)
    case NotificationSwitch(setting, checked) =>
      HandleNotificationChange(st, setting, ChangeEvent("checkbox", checked, VBool(checked)))
    case SecuritySwitch(setting, checked) =>
      HandleSecurityChange(st, setting, ChangeEvent("checkbox", checked, VBool(checked)))
    case AutoLogoutSelect(minutes) =>
      HandleSecurityChange(st, "autoLogout", ChangeEvent("", false, VNum(minutes)))
    case AccountSelect(setting, choice) =>
      HandleAccountChange(st, setting, ChangeEvent("", false, VStr(choice)))
    case ThemeMode(mode) => st.(theme := st.theme["mode" := VStr(mode)])
    case FontSizeSelect(size) => st.(theme := st.theme["fontSize" := VStr(size)])
    case DenseSwitch(checked) => st.(theme := st.theme["dense" := VBool(checked)])
    case PickPrimaryColor(color) => st.(theme := st.theme["primaryColor" := VStr(color)])
    case RequestAccountDeletion =>
      st.(snackbar := Snackbar(true, "Account deletion request received. Please check your email to confirm.", "warning"))
    case Save => HandleSaveSettings(st)
    case Reset => HandleResetSettings(st)
    case CancelReset => HandleCloseDialog(st)
    case ConfirmReset => ConfirmResetSettings(st)
    case CloseSnackbar => HandleCloseSnackbar(st)
    case Terminate(id) => TerminateSession(st, id)
    case TerminateOthers => TerminateOtherSessions(st)
  }

  /** While the reset dialog is open, the only offered control that changes a setting is the
      dialog's confirm button, and no offered control changes the sessions or the tab. */
  lemma DialogIsModal(st: SettingsView, a: Action)
    requires st.openDialog && Offered(st, a)
    ensures Step(st, a).sessions == st.sessions && Step(st, a).tabValue == st.tabValue
    ensures !a.ConfirmReset? ==>
      && Step(st, a).notification == st.notification && Step(st, a).theme == st.theme
      && Step(st, a).security == st.security && Step(st, a).account == st.account
  {
  }

  /** While the reset dialog is closed, no offered control resets the settings: a notification,
      security or account setting changes only through its own control. */
  lemma ResetNeedsDialog(st: SettingsView, a: Action)
    requires !st.openDialog && Offered(st, a)
    ensures Step(st, a).notification != st.notification ==> a.NotificationSwitch?
    ensures Step(st, a).security != st.security ==> a.SecuritySwitch? || a.AutoLogoutSelect?
    ensures Step(st, a).account != st.account ==> a.AccountSelect?
  {
  }

  /** An offered switch always changes the value it is wired to, because its event carries the
      negation of the value it shows. */
  lemma OfferedSwitchChanges(st: SettingsView, a: Action)
    requires Offered(st, a) && (a.NotificationSwitch? || a.SecuritySwitch? || a.DenseSwitch?)
    ensures a.NotificationSwitch? ==> Step(st, a).notification[a.setting] != st.notification[a.setting]
    ensures a.SecuritySwitch? ==> Step(st, a).security[a.setting] != st.security[a.setting]
    ensures a.DenseSwitch? ==> Step(st, a).theme["dense"] != st.theme["dense"]
  {
  }

  /** An offered terminate button always removes at least one session. */
  lemma OfferedTerminateShrinks(st: SettingsView, id: int)
    requires Offered(st, Terminate(id))
    ensures |Step(st, Terminate(id)).sessions| < |st.sessions|
  {
    var k :| 0 <= k < |st.sessions| && st.sessions[k].id == id && !st.sessions[k].current;
    FilterDropsRejected(st.sessions, IdDiffers(id), k);
  }

  /** No two sessions share an id. */
  predicate UniqueSessionIds(sessions: seq<Session>)
  {
    forall i, j :: 0 <= i < j < |sessions| ==> sessions[i].id != sessions[j].id
  }

  function SessionId(): Session -> int { (s: Session) => s.id }

  /** Every control keeps the session ids pairwise distinct: the list only ever loses sessions. */
  lemma StepKeepsUniqueSessionIds(st: SettingsView, a: Action)
    requires UniqueSessionIds(st.sessions)
    ensures UniqueSessionIds(Step(st, a).sessions)
  {
    assert DistinctBy(st.sessions, SessionId());
    match a
    case Terminate(id) =>
      FilterKeepsDistinct(st.sessions, IdDiffers(id), SessionId());
      assert DistinctBy(Step(st, a).sessions, SessionId());
    case TerminateOthers =>
      FilterKeepsDistinct(st.sessions, IsCurrent(), SessionId());
      assert DistinctBy(Step(st, a).sessions, SessionId());
    case _ =>
  }

  /** Every control the page offers keeps the four records in their initial shape. */
  lemma StepKeepsWellTyped(st: SettingsView, a: Action)
    requires WellTyped(st) && Offered(st, a)
    ensures WellTyped(Step(st, a))
  {
    if a.NotificationSwitch? || a.SecuritySwitch? || a.AutoLogoutSelect? || a.AccountSelect? {
      SettingsControlKeepsShape(st, a);
    } else if a.ThemeMode? || a.FontSizeSelect? || a.DenseSwitch? || a.PickPrimaryColor? {
      ThemeControlKeepsShape(st, a);
    } else if a.ConfirmReset? {
      InitialAndResetWellTyped("#1976d2", st);
    } else {
      StepKeepsRecords(st, a);
    }
  }

  lemma SettingsControlKeepsShape(st: SettingsView, a: Action)
    requires WellTyped(st) && Offered(st, a)
    requires a.NotificationSwitch? || a.SecuritySwitch? || a.AutoLogoutSelect? || a.AccountSelect?
    ensures WellTyped(Step(st, a))
  {
    match a
    case NotificationSwitch(setting, checked) =>
      assert setting in NotificationSchema();
      NotificationChangeKeepsShape(st, setting, checked);
    case SecuritySwitch(setting, checked) =>
      SecurityChangeKeepsShape(st, setting, VBool(checked));
    case AutoLogoutSelect(minutes) =>
      SecurityChangeKeepsShape(st, "autoLogout", VNum(minutes));
    case AccountSelect(setting, choice) =>
      AccountChangeKeepsShape(st, setting, choice);
  }

  lemma ThemeControlKeepsShape(st: SettingsView, a: Action)
    requires WellTyped(st)
    requires a.ThemeMode? || a.FontSizeSelect? || a.DenseSwitch? || a.PickPrimaryColor?
    ensures WellTyped(Step(st, a))
  {
    match a
    case ThemeMode(mode) =>
      ThemeChangeKeepsShape(st, "mode", VStr(mode));
    case FontSizeSelect(size) =>
      ThemeChangeKeepsShape(st, "fontSize", VStr(size));
    case DenseSwitch(checked) =>
      ThemeChangeKeepsShape(st, "dense", VBool(checked));
    case PickPrimaryColor(color) =>
      ThemeChangeKeepsShape(st, "primaryColor", VStr(color));
  }

  /** The controls that do not edit a setting leave all four records as they are. */
  lemma StepKeepsRecords(st: SettingsView, a: Action)
    requires a.ChangeTab? || a.Save? || a.Reset? || a.CancelReset? || a.CloseSnackbar? ||
             a.Terminate? || a.TerminateOthers? || a.RequestAccountDeletion?
    ensures Step(st, a).notification == st.notification && Step(st, a).theme == st.theme
    ensures Step(st, a).security == st.security && Step(st, a).account == st.account
  {
  }

  lemma NotificationChangeKeepsShape(st: SettingsView, setting: string, checked: bool)
    requires WellTyped(st) && setting in NotificationSchema()
    ensures WellTyped(st.(notification := st.notification[setting := VBool(checked)]))
  {
    SetKeyShape(st.notification, NotificationSchema(), setting, VBool(checked));
  }

  lemma SecurityChangeKeepsShape(st: SettingsView, setting: string, v: Value)
    requires WellTyped(st) && setting in SecuritySchema() && KindOf(v) == SecuritySchema()[setting]
    ensures WellTyped(st.(security := st.security[setting := v]))
  {
    SetKeyShape(st.security, SecuritySchema(), setting, v);
  }

  lemma AccountChangeKeepsShape(st: SettingsView, setting: string, choice: string)
    requires WellTyped(st) && setting in AccountSchema()
    ensures WellTyped(st.(account := st.account[setting := VStr(choice)]))
  {
    SetKeyShape(st.account, AccountSchema(), setting, VStr(choice));
  }

  lemma ThemeChangeKeepsShape(st: SettingsView, setting: string, v: Value)
    requires WellTyped(st) && setting in ThemeSchema() && KindOf(v) == ThemeSchema()[setting]
    ensures WellTyped(st.(theme := st.theme[setting := v]))
  {
    SetKeyShape(st.theme, ThemeSchema(), setting, v);
  }

  /** With distinct session ids, no control the page offers ever removes a current session:
      the current sessions, in order, are the same after every step. */
  lemma StepKeepsCurrentSessions(st: SettingsView, a: Action)
    requires UniqueSessionIds(st.sessions) && Offered(st, a)
    ensures Filter(Step(st, a).sessions, IsCurrent()) == Filter(st.sessions, IsCurrent())
  {
    if a.Terminate? {
      var id := a.sessionId;
      assert Rendered(st, a);
      var k :| 0 <= k < |st.sessions| && st.sessions[k].id == id && !st.sessions[k].current;
      forall i | 0 <= i < |st.sessions| ensures !IdDiffers(id)(st.sessions[i]) ==> !IsCurrent()(st.sessions[i]) {
        if st.sessions[i].id == id {
          assert i == k;
        }
      }
      FilterThenFilter(st.sessions, IdDiffers(id), IsCurrent());
    } else if a.TerminateOthers? {
      FilterIdempotent(st.sessions, IsCurrent());
    } else {
      assert Step(st, a).sessions == st.sessions;
    }
  }

  /** From the initial state, exactly one session is current; so after terminating all others only
      that session is listed and the button is disabled. */
  lemma InitialHasOneCurrentSession(themePrimary: string)
    ensures |Filter(InitialView(themePrimary).sessions, IsCurrent())| == 1
    ensures TerminateOthersDisabled(TerminateOtherSessions(InitialView(themePrimary)))
  {
    var s := InitialView(themePrimary).sessions;
    assert Filter(s, IsCurrent()) == [s[0]] by {
      assert s[1..][1..][1..] == [];
      assert Filter(s[1..][1..], IsCurrent()) == [];
      assert Filter(s[1..], IsCurrent()) == [];
    }
  }
}

=== FILE: TaskService.dfy ===
/** The back end's task service: every operation first looks the caller up by e-mail, then (except
    for creation and listing) looks the task up by id and checks that the caller owns it, and only
    then changes the task repository. Both repositories are maps held by one object. */
module TaskService {
  import opened Wrappers

  /** Task.TaskPriority. */
  datatype Priority = Low | Medium | High

  /** A Task.TaskStatus constant, identified by its name. */
  datatype TaskStatus = TaskStatus(name: string)

  /** A java.time.LocalDateTime value. */
  datatype LocalDateTime = LocalDateTime(year: int, month: int, day: int, hour: int, minute: int, second: int, nano: int)

  /** A registered user. */
  datatype User = User(id: int, email: string)

  /** A stored task. Title and description are Java strings and may be null (`None`). */
  datatype Task = Task(
    id: int,
    title: Option<string>,
    description: Option<string>,
    priority: Priority,
    status: Option<TaskStatus>,
    dueDate: Option<LocalDateTime>,
    owner: User)

  /** The body of an update request; every field may be null. */
  datatype TaskRequest = TaskRequest(
    title: Option<string>,
    description: Option<string>,
    priority: Option<Priority>,
    dueDate: Option<string>)

  /** Why an operation failed: the three runtime exceptions the service throws, and the parse
      exception a malformed due date raises. */
  datatype Failure = UserNotFound | TaskNotFound | Unauthorized | UnparsableDueDate(text: string)

  /** The message of the exception the service throws for each failure it raises itself. */
  function Message(f: Failure): (m: string)
    requires !f.UnparsableDueDate?
    ensures f == UserNotFound <==> m == "User not found"
    ensures f == TaskNotFound <==> m == "Task not found"
    ensures f == Unauthorized <==> m == "Unauthorized"
  {
    match f
    case UserNotFound => "User not found"
    case TaskNotFound => "Task not found"
    case Unauthorized => "Unauthorized"
  }

  /** A due date string that the service parses: non-null and non-empty. */
  predicate HasText(s: Option<string>)
  {
    s.Some? && s.value != ""
  }

  /** The three checks of update, delete and status change, in the service's order: the caller must
      exist, then the task must exist, then the task must belong to the caller. Each failure is
      reported exactly when the earlier checks pass and its own check fails. */
  function Authorize(users: map<string, User>, tasks: map<int, Task>, id: int, email: string): (r: Result<Task, Failure>)
    ensures r == Err(UserNotFound) <==> email !in users
    ensures r == Err(TaskNotFound) <==> email in users && id !in tasks
    ensures r == Err(Unauthorized) <==> email in users && id in tasks && tasks[id].owner.id != users[email].id
    ensures r.Ok? <==> email in users && id in tasks && tasks[id].owner.id == users[email].id
    ensures r.Ok? ==> r.value == tasks[id]
  {
    if email !in users then Err(UserNotFound)
    else if id !in tasks then Err(TaskNotFound)
    else if tasks[id].owner.id != users[email].id then Err(Unauthorized)
    else Ok(tasks[id])
  }

  /** The ids of the stored tasks owned by the user with id `uid`. */
  function OwnedIds(tasks: map<int, Task>, uid: int): set<int>
  {
    set id | id in tasks && tasks[id].owner.id == uid
  }

  /** Replacing a task by one with the same owner, or removing it, leaves every other user's tasks
      exactly as they were. */
  lemma OtherOwnersUnaffected(tasks: map<int, Task>, id: int, t: Task, uid: int)
    requires id in tasks && t.owner.id == tasks[id].owner.id && tasks[id].owner.id != uid
    ensures OwnedIds(tasks[id := t], uid) == OwnedIds(tasks, uid)
    ensures OwnedIds(tasks - {id}, uid) == OwnedIds(tasks, uid)
    ensures forall k :: k in OwnedIds(tasks, uid) ==> tasks[id := t][k] == tasks[k] && (tasks - {id})[k] == tasks[k]
  {
  }

  /** Adding a task under a new id adds exactly that id to its owner's tasks and nothing to anyone else's. */
  lemma AddedTaskOwnedByItsOwnerOnly(tasks: map<int, Task>, t: Task, uid: int)
    requires t.id !in tasks
    ensures OwnedIds(tasks[t.id := t], uid) == if t.owner.id == uid then OwnedIds(tasks, uid) + {t.id} else OwnedIds(tasks, uid)
  {
  }

  /** The two repositories. `nextId` stands for the database's id generator: every stored id is below it. */
  class TaskStore {
    var users: map<string, User>
    var tasks: map<int, Task>
    var nextId: int

    ghost predicate Valid()
      reads this
    {
      forall id :: id in tasks ==> tasks[id].id == id && id < nextId
    }

    /** The service over repositories that may already hold data: every stored task sits under its
        own id, and the id generator is past every stored id. */
    constructor (users: map<string, User>, tasks: map<int, Task>, nextId: int)
      requires forall id :: id in tasks ==> tasks[id].id == id && id < nextId
      ensures Valid() && this.users == users && this.tasks == tasks && this.nextId == nextId
    {
      this.users := users;
      this.tasks := tasks;
      this.nextId := nextId;
    }

    /** The caller's tasks (the repository's find-by-user query), keyed by id. */
    method GetUserTasks(email: string) returns (r: Result<map<int, Task>, Failure>)
      requires Valid()
      ensures email !in users ==> r == Err(UserNotFound)
      ensures email in users ==> r.Ok?
      ensures r.Ok? ==> r.value.Keys == OwnedIds(tasks, users[email].id)
      ensures r.Ok? ==> forall id :: id in r.value ==> r.value[id] == tasks[id] && r.value[id].owner.id == users[email].id
    {
      if email !in users {
        return Err(UserNotFound);
      }
      var user := users[email];
      return Ok(map id | id in tasks && tasks[id].owner.id == user.id :: tasks[id]);
    }

    /** Stores a new task owned by the caller: priority MEDIUM when none is given, and a due date only
        when a non-empty one is given (which must then parse). Nothing is stored on failure. */
    method CreateTask(title: Option<string>, description: Option<string>, priority: Option<Priority>,
                      dueDate: Option<string>, email: string, parse: string -> Option<LocalDateTime>)
      returns (r: Result<Task, Failure>)
      requires Valid()
      modifies this
      ensures Valid() && users == old(users)
      ensures r.Err? ==> tasks == old(tasks) && nextId == old(nextId)
      ensures email !in users ==> r == Err(UserNotFound)
      ensures email in users && HasText(dueDate) && parse(dueDate.value).None? ==> r == Err(UnparsableDueDate(dueDate.value))
      ensures r.Ok? <==> email in users && !(HasText(dueDate) && parse(dueDate.value).None?)
      ensures r.Ok? ==>
        && r.value.id == old(nextId) && r.value.id !in old(tasks)
        && r.value.title == title && r.value.description == description
        && r.value.priority == (if priority.Some? then priority.value else Medium)
        && r.value.status == None
        && r.value.dueDate == (if HasText(dueDate) then parse(dueDate.value) else None)
        && r.value.owner == users[email]
        && tasks == old(tasks)[r.value.id := r.value]
    {
      if email !in users {
        return Err(UserNotFound);
      }
      var user := users[email];
      var due: Option<LocalDateTime> := None;
      if dueDate.Some? && dueDate.value != "" {
        due := parse(dueDate.value);
        if due.None? {
          return Err(UnparsableDueDate(dueDate.value));
        }
      }
      var task := Task(nextId, title, description, if priority.Some? then priority.value else Medium, None, due, user);
      tasks := tasks[task.id := task];
      nextId := nextId + 1;
      return Ok(task);
    }

    /** Overwrites title and description of the caller's task, its priority only when one is given,
        and its due date only when a non-empty one is given. Nothing changes on failure. */
    method UpdateTask(id: int, request: TaskRequest, email: string, parse: string -> Option<LocalDateTime>)
      returns (r: Result<Task, Failure>)
      requires Valid()
      modifies this
      ensures Valid() && users == old(users) && nextId == old(nextId)
      ensures r.Err? ==> tasks == old(tasks)
      ensures Authorize(users, old(tasks), id, email).Err? ==> r == Err(Authorize(users, old(tasks), id, email).error)
      ensures Authorize(users, old(tasks), id, email).Ok? && HasText(request.dueDate) && parse(request.dueDate.value).None? ==>
        r == Err(UnparsableDueDate(request.dueDate.value))
      ensures r.Ok? <==> Authorize(users, old(tasks), id, email).Ok? && !(HasText(request.dueDate) && parse(request.dueDate.value).None?)
      ensures r.Ok? ==>
        var was := old(tasks)[id];
        && r.value.id == id && r.value.owner == was.owner && r.value.status == was.status
        && r.value.title == request.title && r.value.description == request.description
        && r.value.priority == (if request.priority.Some? then request.priority.value else was.priority)
        && r.value.dueDate == (if HasText(request.dueDate) then parse(request.dueDate.value) else was.dueDate)
        && tasks == old(tasks)[id := r.value]
    {
      if email !in users {
        return Err(UserNotFound);
      }
      var user := users[email];
      if id !in tasks {
        return Err(TaskNotFound);
      }
      var task := tasks[id];
      if task.owner.id != user.id {
        return Err(Unauthorized);
      }
      task := task.(title := request.title);
      task := task.(description := request.description);
      if request.priority.Some? {
        task := task.(priority := request.priority.value);
      }
      if request.dueDate.Some? && request.dueDate.value != "" {
        var due := parse(request.dueDate.value);
        if due.None? {
          return Err(UnparsableDueDate(request.dueDate.value));
        }
        task := task.(dueDate := due);
      }
      tasks := tasks[id := task];
      return Ok(task);
    }

    /** Removes the caller's task with id `id` and nothing else. Nothing changes on failure. */
    method DeleteTask(id: int, email: string) returns (r: Result<(), Failure>)
      requires Valid()
      modifies this
      ensures Valid() && users == old(users) && nextId == old(nextId)
      ensures r.Err? ==>
        tasks == old(tasks) && Authorize(users, old(tasks), id, email).Err? && r.error == Authorize(users, old(tasks), id, email).error
      ensures r.Ok? <==> Authorize(users, old(tasks), id, email).Ok?
      ensures r.Ok? ==> tasks == old(tasks) - {id} && id in old(tasks)
    {
      if email !in users {
        return Err(UserNotFound);
      }
      var user := users[email];
      if id !in tasks {
        return Err(TaskNotFound);
      }
      var task := tasks[id];
      if task.owner.id != user.id {
        return Err(Unauthorized);
      }
      tasks := tasks - {id};
      return Ok(());
    }

    /** Sets the status of the caller's task with id `id`, and nothing else. Nothing changes on failure. */
    method UpdateTaskStatus(id: int, status: Option<TaskStatus>, email: string) returns (r: Result<Task, Failure>)
      requires Valid()
      modifies this
      ensures Valid() && users == old(users) && nextId == old(nextId)
      ensures r.Err? ==>
        tasks == old(tasks) && Authorize(users, old(tasks), id, email).Err? && r.error == Authorize(users, old(tasks), id, email).error
      ensures r.Ok? <==> Authorize(users, old(tasks), id, email).Ok?
      ensures r.Ok? ==> r.value == old(tasks)[id].(status := status) && tasks == old(tasks)[id := r.value]
    {
      if email !in users {
        return Err(UserNotFound);
      }
      var user := users[email];
      if id !in tasks {
        return Err(TaskNotFound);
      }
      var task := tasks[id];
      if task.owner.id != user.id {
        return Err(Unauthorized);
      }
      task := task.(status := status);
      tasks := tasks[id := task];
      return Ok(task);
    }
  }
}

=== FILE: Tasks.dfy ===
/** The task list page: an ordered store of task records, the two-stage visible view
    (status tab, then case-insensitive title search), the per-tab counts, and the
    handlers that replace the store with a new list on every user action. */
module Tasks {
  import opened Wrappers
  import opened Seqs
  import opened Text

  /** One task record as the page holds it. `priority` is a free string: the page writes only
      "high" and "medium", the initial data also holds "low", and the chip has a fallback for others. */
  datatype Task = Task(
    id: int,
    title: string,
    completed: bool,
    important: bool,
    priority: string,
    dueDate: Option<string>,
    createdAt: Option<string>)

  /** The page's state: the store, the selected tab, the search box, the new-task box, and the
      context menu (its anchor element is present exactly when `menuOpen`, and `selected` is the
      snapshot of the task it was opened on). */
  datatype TasksView = TasksView(
    tasks: seq<Task>,
    activeTab: string,
    searchQuery: string,
    newTask: string,
    menuOpen: bool,
    selected: Option<Task>)

  /** The three tasks the page starts with. */
  function InitialTasks(): seq<Task>
  {
    [ Task(1, "Complete project proposal", false, true, "high", Some("2023-11-25"), None),
      Task(2, "Review pull requests", true, false, "medium", Some("2023-11-20"), None),
      Task(3, "Update documentation", false, true, "low", Some("2023-11-30"), None) ]
  }

  /** The state the page starts in: the initial tasks, tab "all", both text boxes empty, menu closed.
      Its ids are distinct, and two tasks are open, one is completed and two are important. */
  function InitialView(): (v: TasksView)
    ensures MenuConsistent(v) && !v.menuOpen
    ensures UniqueIds(v.tasks)
    ensures CountTasks(v.tasks) == TaskCounts(3, 2, 1, 2)
  {
    TasksView(InitialTasks(), "all", "", "", false, None)
  }

  // ---------------------------------------------------------------- the visible view

  /** Whether the tab `tab` shows task `t`; a tab value other than the three named ones shows everything. */
  predicate ShownOnTab(t: Task, tab: string)
  {
    if tab == "active" then !t.completed
    else if tab == "completed" then t.completed
    else if tab == "important" then t.important
    else true
  }

  function TabPredicate(tab: string): Task -> bool
  {
    t => ShownOnTab(t, tab)
  }

  /** The first stage of the view: the tasks shown on the active tab. */
  function FilteredTasks(tasks: seq<Task>, tab: string): (r: seq<Task>)
    ensures forall i :: 0 <= i < |r| ==> ShownOnTab(r[i], tab)
  {
    Filter(tasks, TabPredicate(tab))
  }

  /** The title, lower-cased, contains the lower-cased query. */
  predicate MatchesQuery(t: Task, query: string)
  {
    Includes(ToLower(t.title), ToLower(query))
  }

  function QueryPredicate(query: string): Task -> bool
  {
    t => MatchesQuery(t, query)
  }

  /** The second stage of the view: the tab-filtered tasks whose title matches the query. */
  function SearchedTasks(filtered: seq<Task>, query: string): (r: seq<Task>)
    ensures forall i :: 0 <= i < |r| ==> MatchesQuery(r[i], query)
  {
    Filter(filtered, QueryPredicate(query))
  }

  /** What the list shows: the tab filter first, then the search. */
  function VisibleTasks(v: TasksView): seq<Task>
  {
    SearchedTasks(FilteredTasks(v.tasks, v.activeTab), v.searchQuery)
  }

  /** The tab filter keeps exactly the tasks its tab selects, in store order. */
  lemma TabFilterExact(tasks: seq<Task>, tab: string)
    ensures forall t :: t in FilteredTasks(tasks, tab) <==> t in tasks && ShownOnTab(t, tab)
    ensures forall t :: multiset(FilteredTasks(tasks, tab))[t] == if ShownOnTab(t, tab) then multiset(tasks)[t] else 0
    ensures IsSubsequence(FilteredTasks(tasks, tab), tasks)
    ensures tab !in {"active", "completed", "important"} ==> FilteredTasks(tasks, tab) == tasks
  {
    FilterMultiset(tasks, TabPredicate(tab));
    forall t ensures t in FilteredTasks(tasks, tab) <==> t in tasks && ShownOnTab(t, tab) {
      FilterMembership(tasks, TabPredicate(tab), t);
    }
    FilterIsSubsequence(tasks, TabPredicate(tab));
    FilterKeepsAll(tasks, TabPredicate(tab));
  }

  /** The search keeps exactly the tasks whose lower-cased title contains the lower-cased query,
      in their order; the empty query keeps them all. */
  lemma SearchExact(filtered: seq<Task>, query: string)
    ensures forall t :: t in SearchedTasks(filtered, query) <==>
      t in filtered && exists i :: OccursAt(ToLower(t.title), ToLower(query), i)
    ensures forall t ::
      multiset(SearchedTasks(filtered, query))[t] == if MatchesQuery(t, query) then multiset(filtered)[t] else 0
    ensures IsSubsequence(SearchedTasks(filtered, query), filtered)
    ensures query == "" ==> SearchedTasks(filtered, query) == filtered
  {
    FilterMultiset(filtered, QueryPredicate(query));
    forall t ensures t in SearchedTasks(filtered, query) <==>
      t in filtered && exists i :: OccursAt(ToLower(t.title), ToLower(query), i)
    {
      FilterMembership(filtered, QueryPredicate(query), t);
      IncludesIff(ToLower(t.title), ToLower(query));
    }
    FilterIsSubsequence(filtered, QueryPredicate(query));
    if query == "" {
      forall i | 0 <= i < |filtered| ensures QueryPredicate(query)(filtered[i]) {
        IncludesEmpty(ToLower(filtered[i].title));
      }
      FilterKeepsAll(filtered, QueryPredicate(query));
    }
  }

  /** The visible list is exactly the stored tasks that pass both stages, in store order. */
  lemma VisibleExact(v: TasksView)
    ensures forall t :: t in VisibleTasks(v) <==>
      t in v.tasks && ShownOnTab(t, v.activeTab) && MatchesQuery(t, v.searchQuery)
    ensures forall t ::
      multiset(VisibleTasks(v))[t] ==
        if ShownOnTab(t, v.activeTab) && MatchesQuery(t, v.searchQuery) then multiset(v.tasks)[t] else 0
    ensures IsSubsequence(VisibleTasks(v), v.tasks)
  {
    var f := FilteredTasks(v.tasks, v.activeTab);
    FilterMultiset(v.tasks, TabPredicate(v.activeTab));
    FilterMultiset(f, QueryPredicate(v.searchQuery));
    forall t ensures t in VisibleTasks(v) <==>
      t in v.tasks && ShownOnTab(t, v.activeTab) && MatchesQuery(t, v.searchQuery)
    {
      FilterMembership(v.tasks, TabPredicate(v.activeTab), t);
      FilterMembership(f, QueryPredicate(v.searchQuery), t);
    }
    TabFilterExact(v.tasks, v.activeTab);
    SearchExact(f, v.searchQuery);
    SubsequenceTransitive(VisibleTasks(v), f, v.tasks);
  }

  lemma {:induction false} SubsequenceTransitive<T>(a: seq<T>, b: seq<T>, c: seq<T>)
    requires IsSubsequence(a, b) && IsSubsequence(b, c)
    ensures IsSubsequence(a, c)
    decreases |c|
  {
    if a != [] {
      assert b != [] && c != [];
      if b[0] == c[0] && IsSubsequence(b[1..], c[1..]) {
        if a[0] == b[0] && IsSubsequence(a[1..], b[1..]) {
          SubsequenceTransitive(a[1..], b[1..], c[1..]);
        } else {
          SubsequenceTransitive(a, b[1..], c[1..]);
        }
      } else {
        SubsequenceTransitive(a, b, c[1..]);
      }
    }
  }

  /** A completed and an open task: the "completed" tab shows only the second, and the
      "active" tab only the first. */
  lemma TabScenario()
    ensures var a := Task(1, "A", false, false, "medium", None, None);
      var b := Task(2, "B", true, false, "medium", None, None);
      && FilteredTasks([a, b], "completed") == [b]
      && FilteredTasks([a, b], "active") == [a]
      && FilteredTasks([a, b], "all") == [a, b]
  {
    var a := Task(1, "A", false, false, "medium", None, None);
    var b := Task(2, "B", true, false, "medium", None, None);
    assert [a, b][1..] == [b] && [b][1..] == [];
  }

  /** Searching "rep" or "REP" among "Write report" and "Buy milk" finds only "Write report". */
  lemma SearchScenario()
    ensures var w := Task(1, "Write report", false, false, "medium", None, None);
      var m := Task(2, "Buy milk", false, false, "medium", None, None);
      && SearchedTasks([w, m], "rep") == [w]
      && SearchedTasks([w, m], "REP") == [w]
  {
    var w := Task(1, "Write report", false, false, "medium", None, None);
    var m := Task(2, "Buy milk", false, false, "medium", None, None);
    SearchScenarioMatches();
    SearchOfTwo(w, m, "rep");
    SearchOfTwo(w, m, "REP");
  }

  lemma SearchOfTwo(w: Task, m: Task, query: string)
    requires MatchesQuery(w, query) && !MatchesQuery(m, query)
    ensures SearchedTasks([w, m], query) == [w]
  {
    var p := QueryPredicate(query);
    assert p(w) && !p(m);
    assert [w, m][1..] == [m] && [m][1..] == [];
    assert Filter([m], p) == Filter([], p) == [];
    assert Filter([w, m], p) == [w] + Filter([m], p);
  }

  lemma SearchScenarioMatches()
    ensures ToLower("REP") == "rep" && ToLower("rep") == "rep"
    ensures Includes(ToLower("Write report"), "rep")
    ensures !Includes(ToLower("Buy milk"), "rep")
  {
    LowerRep();
    LowerWriteReport();
    LowerBuyMilk();
    assert OccursAt("write report", "rep", 6);
    IncludesIff("write report", "rep");
    NoRepInBuyMilk();
  }

  lemma LowerRep()
    ensures ToLower("REP") == "rep" && ToLower("rep") == "rep"
  {
  }

  lemma LowerWriteReport()
    ensures ToLower("Write report") == "write report"
  {
  }

  lemma LowerBuyMilk()
    ensures ToLower("Buy milk") == "buy milk"
  {
  }

  lemma NoRepInBuyMilk()
    ensures !Includes("buy milk", "rep")
  {
    IncludesIff("buy milk", "rep");
    var h := "buy milk";
    forall i ensures !OccursAt(h, "rep", i) {
      if 0 <= i && i + 3 <= |h| {
        assert h[i..i + 3][0] == h[i];
        assert i == 0 || i == 1 || i == 2 || i == 3 || i == 4 || i == 5;
        assert h[i] != 'r';
      }
    }
  }

  // ---------------------------------------------------------------- counts

  /** The badge numbers of the four tabs. */
  datatype TaskCounts = TaskCounts(all: nat, active: nat, completed: nat, important: nat)

  function NotCompleted(): Task -> bool { (t: Task) => !t.completed }
  function IsCompleted(): Task -> bool { (t: Task) => t.completed }
  function IsImportant(): Task -> bool { (t: Task) => t.important }

  /** Counts of the tasks per tab, each computed with its own filter as the page does; they agree
      with the tab filter and active and completed tasks partition the store. */
  function CountTasks(tasks: seq<Task>): (c: TaskCounts)
    ensures c.all == |tasks|
    ensures c.active == |FilteredTasks(tasks, "active")|
    ensures c.completed == |FilteredTasks(tasks, "completed")|
    ensures c.important == |FilteredTasks(tasks, "important")|
    ensures c.active + c.completed == c.all
  {
    FilterAgree(tasks, NotCompleted(), TabPredicate("active"));
    FilterAgree(tasks, IsCompleted(), TabPredicate("completed"));
    FilterAgree(tasks, IsImportant(), TabPredicate("important"));
    FilterComplement(tasks, NotCompleted(), IsCompleted());
    TaskCounts(
      |tasks|,
      |Filter(tasks, NotCompleted())|,
      |Filter(tasks, IsCompleted())|,
      |Filter(tasks, IsImportant())|)
  }

  // ---------------------------------------------------------------- mutations of the store

  /** The record a non-blank add creates: trimmed title, not completed, not important, medium, no due date. */
  function NewTask(id: int, title: string, createdAt: string): Task
  {
    Task(id, title, false, false, "medium", None, Some(createdAt))
  }

  /** Submitting the add form. `id` and `createdAt` stand for the clock readings the page takes. */
  function AddTask(v: TasksView, id: int, createdAt: string): (r: TasksView)
    ensures IsBlank(v.newTask) ==> r == v
    ensures !IsBlank(v.newTask) ==>
      && |r.tasks| == |v.tasks| + 1
      && r.tasks[0] == NewTask(id, Trim(v.newTask), createdAt)
      && r.tasks[1..] == v.tasks
      && r.newTask == ""
      && r == v.(tasks := r.tasks, newTask := "")
  {
    var title := Trim(v.newTask);
    if title == [] then v
    else v.(tasks := [NewTask(id, title, createdAt)] + v.tasks, newTask := "")
  }

  /** The title an add stores is non-empty and neither starts nor ends with whitespace. */
  lemma AddedTitleTrimmed(v: TasksView, id: int, createdAt: string)
    requires !IsBlank(v.newTask)
    ensures var t := AddTask(v, id, createdAt).tasks[0].title;
      t != [] && !IsWhitespace(t[0]) && !IsWhitespace(t[|t| - 1]) && Trim(t) == t
  {
    TrimIdempotent(v.newTask);
  }

  /** The checkbox: flip `completed` on the tasks with id `id`. */
  function ToggleTask(tasks: seq<Task>, id: int): (r: seq<Task>)
    ensures |r| == |tasks|
  {
    seq(|tasks|, i requires 0 <= i < |tasks| =>
      if tasks[i].id == id then tasks[i].(completed := !tasks[i].completed) else tasks[i])
  }

  /** The star: flip `important` on the tasks with id `id`, and set their priority to "medium" if it
      was "high" and to "high" otherwise. */
  function ToggleImportant(tasks: seq<Task>, id: int): (r: seq<Task>)
    ensures |r| == |tasks|
  {
    seq(|tasks|, i requires 0 <= i < |tasks| =>
      if tasks[i].id == id
      then tasks[i].(important := !tasks[i].important,
                     priority := if tasks[i].priority == "high" then "medium" else "high")
      else tasks[i])
  }

  function IdDiffers(id: int): Task -> bool { (t: Task) => t.id != id }

  /** Removing the tasks with id `id` from the list. */
  function RemoveTask(tasks: seq<Task>, id: int): (r: seq<Task>)
    ensures forall i :: 0 <= i < |r| ==> r[i].id != id
  {
    Filter(tasks, IdDiffers(id))
  }

  /** The delete menu action's handler: remove the tasks with id `id` and close the menu. */
  function DeleteTask(v: TasksView, id: int): (r: TasksView)
    ensures r.tasks == RemoveTask(v.tasks, id)
    ensures !r.menuOpen && r.selected == None
    ensures r.activeTab == v.activeTab && r.searchQuery == v.searchQuery && r.newTask == v.newTask
  {
    HandleMenuClose(v.(tasks := RemoveTask(v.tasks, id)))
  }

  /** Two tasks agree in every field except `completed`. */
  predicate SameButCompleted(a: Task, b: Task)
  {
    a.(completed := b.completed) == b
  }

  /** Toggling completion flips `completed` exactly on the tasks with that id and changes nothing else;
      for an absent id it is the identity, and toggling twice restores the list. */
  lemma ToggleTaskEffect(tasks: seq<Task>, id: int)
    ensures forall i :: 0 <= i < |tasks| ==>
      && SameButCompleted(ToggleTask(tasks, id)[i], tasks[i])
      && (ToggleTask(tasks, id)[i].completed != tasks[i].completed <==> tasks[i].id == id)
    ensures (forall i :: 0 <= i < |tasks| ==> tasks[i].id != id) ==> ToggleTask(tasks, id) == tasks
    ensures ToggleTask(ToggleTask(tasks, id), id) == tasks
  {
  }

  /** Toggling importance flips `important` and sets the priority of exactly the tasks with that id,
      leaving every other field and every other task as it was; an absent id is the identity. */
  lemma ToggleImportantEffect(tasks: seq<Task>, id: int)
    ensures forall i :: 0 <= i < |tasks| ==>
      var r := ToggleImportant(tasks, id)[i];
      && r.(important := tasks[i].important, priority := tasks[i].priority) == tasks[i]
      && (r.important != tasks[i].important <==> tasks[i].id == id)
      && (tasks[i].id == id ==> r.priority == (if tasks[i].priority == "high" then "medium" else "high"))
    ensures forall i :: 0 <= i < |tasks| && tasks[i].id != id ==> ToggleImportant(tasks, id)[i] == tasks[i]
    ensures (forall i :: 0 <= i < |tasks| ==> tasks[i].id != id) ==> ToggleImportant(tasks, id) == tasks
  {
  }

  /** Two importance toggles always restore `important`, but restore the list exactly when every
      task with that id had priority "high" or "medium". */
  lemma ToggleImportantTwice(tasks: seq<Task>, id: int)
    ensures var r := ToggleImportant(ToggleImportant(tasks, id), id);
      forall i :: 0 <= i < |tasks| ==> r[i].important == tasks[i].important
    ensures ToggleImportant(ToggleImportant(tasks, id), id) == tasks <==>
      forall i :: 0 <= i < |tasks| && tasks[i].id == id ==> tasks[i].priority in {"high", "medium"}
  {
    var r := ToggleImportant(ToggleImportant(tasks, id), id);
    if r == tasks {
      forall i | 0 <= i < |tasks| && tasks[i].id == id ensures tasks[i].priority in {"high", "medium"} {
        assert r[i].priority == tasks[i].priority;
      }
    }
  }

  /** The initial data holds an important task with priority "low": importance and priority are not
      kept coupled, one toggle makes it unimportant with priority "high", and two toggles leave it at
      "medium" rather than "low". */
  lemma ImportanceNotCoupledToPriority()
    ensures var t := InitialTasks()[2];
      && t.important && t.priority == "low"
      && ToggleImportant(InitialTasks(), 3)[2].important == false
      && ToggleImportant(InitialTasks(), 3)[2].priority == "high"
      && ToggleImportant(ToggleImportant(InitialTasks(), 3), 3)[2].priority == "medium"
  {
  }

  /** Deletion removes exactly the tasks with that id, keeps the rest in order, is the identity for
      an absent id, and deleting again changes nothing. */
  lemma RemoveTaskEffect(tasks: seq<Task>, id: int)
    ensures forall t :: t in RemoveTask(tasks, id) <==> t in tasks && t.id != id
    ensures forall t :: multiset(RemoveTask(tasks, id))[t] == if t.id != id then multiset(tasks)[t] else 0
    ensures IsSubsequence(RemoveTask(tasks, id), tasks)
    ensures (forall i :: 0 <= i < |tasks| ==> tasks[i].id != id) ==> RemoveTask(tasks, id) == tasks
    ensures RemoveTask(RemoveTask(tasks, id), id) == RemoveTask(tasks, id)
  {
    forall t ensures t in RemoveTask(tasks, id) <==> t in tasks && t.id != id {
      FilterMembership(tasks, IdDiffers(id), t);
    }
    FilterMultiset(tasks, IdDiffers(id));
    FilterIsSubsequence(tasks, IdDiffers(id));
    FilterKeepsAll(tasks, IdDiffers(id));
    FilterIdempotent(tasks, IdDiffers(id));
  }

  // ---------------------------------------------------------------- ids

  function Ids(tasks: seq<Task>): set<int>
  {
    set i | 0 <= i < |tasks| :: tasks[i].id
  }

  /** No two tasks in the store share an id. */
  predicate UniqueIds(tasks: seq<Task>)
  {
    forall i, j :: 0 <= i < j < |tasks| ==> tasks[i].id != tasks[j].id
  }

  /** Removing tasks never creates a clash of ids: the filtered list's ids are among the old ones
      and stay pairwise distinct. */
  lemma {:induction false} FilterKeepsUniqueIds(tasks: seq<Task>, p: Task -> bool)
    requires UniqueIds(tasks)
    ensures UniqueIds(Filter(tasks, p)) && Ids(Filter(tasks, p)) <= Ids(tasks)
  {
    if tasks != [] {
      var rest := tasks[1..];
      assert UniqueIds(rest) by {
        forall i, j | 0 <= i < j < |rest| ensures rest[i].id != rest[j].id {
          assert rest[i] == tasks[i + 1] && rest[j] == tasks[j + 1];
        }
      }
      FilterKeepsUniqueIds(rest, p);
      var fr := Filter(rest, p);
      assert Ids(rest) <= Ids(tasks) by {
        forall x | x in Ids(rest) ensures x in Ids(tasks) {
          var i :| 0 <= i < |rest| && rest[i].id == x;
          assert tasks[i + 1].id == x;
        }
      }
      assert tasks[0].id !in Ids(rest) by {
        forall i | 0 <= i < |rest| ensures rest[i].id != tasks[0].id {
          assert rest[i] == tasks[i + 1];
        }
      }
      if p(tasks[0]) {
        var r := [tasks[0]] + fr;
        assert Filter(tasks, p) == r;
        forall i, j | 0 <= i < j < |r| ensures r[i].id != r[j].id {
          if i == 0 {
            assert r[j] == fr[j - 1];
            assert fr[j - 1].id in Ids(fr);
          } else {
            assert r[i] == fr[i - 1] && r[j] == fr[j - 1];
          }
        }
        assert Ids(r) <= Ids(tasks) by {
          forall x | x in Ids(r) ensures x in Ids(tasks) {
            var i :| 0 <= i < |r| && r[i].id == x;
            if i == 0 {
              assert tasks[0].id == x;
            } else {
              assert fr[i - 1].id == x;
              assert x in Ids(fr);
            }
          }
        }
      }
    }
  }

  // ---------------------------------------------------------------- menu and actions

  /** Opening the context menu on a task: anchor it and remember a snapshot of the task. */
  function HandleMenuClick(v: TasksView, t: Task): (r: TasksView)
    ensures r.menuOpen && r.selected == Some(t) && r.tasks == v.tasks
    ensures r.activeTab == v.activeTab && r.searchQuery == v.searchQuery && r.newTask == v.newTask
  {
    v.(menuOpen := true, selected := Some(t))
  }

  /** Closing the context menu: no anchor and no selection. */
  function HandleMenuClose(v: TasksView): (r: TasksView)
    ensures !r.menuOpen && r.selected == None && r.tasks == v.tasks
    ensures r.activeTab == v.activeTab && r.searchQuery == v.searchQuery && r.newTask == v.newTask
  {
    v.(menuOpen := false, selected := None)
  }

  /** Every user action the page reacts to. `SubmitNewTask` carries the id and timestamp the clock would give. */
  datatype Action =
    | TypeNewTask(text: string)
    | SubmitNewTask(newId: int, createdAt: string)
    | TypeQuery(query: string)
    | SelectTab(tab: string)
    | CheckTask(taskId: int)
    | StarTask(taskId: int)
    | OpenMenu(task: Task)
    | CloseMenu
    | MenuToggleImportant
    | MenuToggleComplete
    | MenuDelete

  /** The page's reaction to one action. The menu items act on the remembered snapshot's id; the
      delete item does nothing when no task is selected (and then leaves the menu as it is). */
  function Step(v: TasksView, a: Action): (r: TasksView)
    ensures r.tasks != v.tasks ==>
      a.SubmitNewTask? || a.CheckTask? || a.StarTask? ||
      ((a.MenuToggleImportant? || a.MenuToggleComplete? || a.MenuDelete?) && v.selected.Some?)
    ensures |r.tasks| != |v.tasks| ==> a.SubmitNewTask? || a.MenuDelete?
    ensures a.MenuDelete? && v.selected.None? ==> r == v
    ensures (a.MenuToggleImportant? || a.MenuToggleComplete?) && v.selected.None? ==> r == HandleMenuClose(v)
    ensures a.MenuToggleImportant? && v.selected.Some? ==> r.tasks == ToggleImportant(v.tasks, v.selected.value.id)
    ensures a.MenuToggleComplete? && v.selected.Some? ==> r.tasks == ToggleTask(v.tasks, v.selected.value.id)
    ensures a.MenuDelete? && v.selected.Some? ==> r.tasks == RemoveTask(v.tasks, v.selected.value.id)
  {
    match a
    case TypeNewTask(text) => v.(newTask := text)
    case SubmitNewTask(newId, createdAt) => AddTask(v, newId, createdAt)
    case TypeQuery(q) => v.(searchQuery := q)
    case SelectTab(tab) => v.(activeTab := tab)
    case CheckTask(id) => v.(tasks := ToggleTask(v.tasks, id))
    case StarTask(id) => v.(tasks := ToggleImportant(v.tasks, id))
    case OpenMenu(t) => HandleMenuClick(v, t)
    case CloseMenu => HandleMenuClose(v)
    case MenuToggleImportant =>
      HandleMenuClose(if v.selected.Some? then v.(tasks := ToggleImportant(v.tasks, v.selected.value.id)) else v)
    case MenuToggleComplete =>
      HandleMenuClose(if v.selected.Some? then v.(tasks := ToggleTask(v.tasks, v.selected.value.id)) else v)
    case MenuDelete =>
      if v.selected.Some? then DeleteTask(v, v.selected.value.id) else v
  }

  /** The menu's anchor and its selection are set and cleared together. */
  predicate MenuConsistent(v: TasksView)
  {
    v.menuOpen <==> v.selected.Some?
  }

  /** Every action keeps the menu's anchor and selection in step, and every menu item closes the
      menu when it acts. */
  lemma StepKeepsMenuConsistent(v: TasksView, a: Action)
    requires MenuConsistent(v)
    ensures MenuConsistent(Step(v, a))
    ensures (a.MenuToggleImportant? || a.MenuToggleComplete? || (a.MenuDelete? && v.menuOpen)) ==>
      !Step(v, a).menuOpen
  {
  }

  /** An id the page would give a new task: one no stored task has. */
  predicate FreshIdFor(v: TasksView, a: Action)
  {
    a.SubmitNewTask? ==> a.newId !in Ids(v.tasks)
  }

  /** If added tasks get fresh ids, every action keeps the ids in the store pairwise distinct. */
  lemma StepKeepsUniqueIds(v: TasksView, a: Action)
    requires UniqueIds(v.tasks) && FreshIdFor(v, a)
    ensures UniqueIds(Step(v, a).tasks)
  {
    var r := Step(v, a);
    match a
    case SubmitNewTask(newId, createdAt) =>
      if !IsBlank(v.newTask) {
        forall i, j | 0 <= i < j < |r.tasks| ensures r.tasks[i].id != r.tasks[j].id {
          assert r.tasks[j] == v.tasks[j - 1];
          if i > 0 {
            assert r.tasks[i] == v.tasks[i - 1];
          } else {
            assert v.tasks[j - 1].id in Ids(v.tasks);
          }
        }
      }
    case MenuDelete =>
      if v.selected.Some? {
        FilterKeepsUniqueIds(v.tasks, IdDiffers(v.selected.value.id));
      }
    case _ =>
  }

  // ---------------------------------------------------------------- priority chip

  /** The caption and colour of the priority chip. */
  datatype Chip = Chip(caption: string, color: string)

  /** The chip for a priority: the three known priorities get their own label and colour,
      anything else falls back to label "Low" with the neutral colour. */
  function PriorityChip(priority: string): (c: Chip)
    ensures c.caption in {"High", "Medium", "Low"}
    ensures c.caption == "Low" <==> priority !in {"high", "medium"}
    ensures c.color == "default" <==> priority !in {"high", "medium", "low"}
    ensures priority == "high" ==> c == Chip("High", "error")
    ensures priority == "medium" ==> c == Chip("Medium", "warning")
    ensures priority == "low" ==> c == Chip("Low", "primary")
  {
    if priority == "high" then Chip("High", "error")
    else if priority == "medium" then Chip("Medium", "warning")
    else if priority == "low" then Chip("Low", "primary")
    else Chip("Low", "default")
  }
}

=== FILE: Text.dfy ===
/** The JavaScript string operations the task list relies on: `trim`, `toLowerCase` and `includes`. */
module Text {

  /** ECMAScript WhiteSpace and LineTerminator code points, the characters `String.prototype.trim` removes. */
  predicate IsWhitespace(c: char)
  {
    || c == ' ' || c == '\t' || c == '\n' || c == '\r'
    || c == '\U{000B}' || c == '\U{000C}' || c == '\U{00A0}' || c == '\U{FEFF}'
    || c == '\U{1680}' || ('\U{2000}' <= c <= '\U{200A}')
    || c == '\U{2028}' || c == '\U{2029}' || c == '\U{202F}' || c == '\U{205F}' || c == '\U{3000}'
  }

  /** Every character of `s` is whitespace (vacuously so for the empty string). */
  predicate IsBlank(s: string)
  {
    forall i :: 0 <= i < |s| ==> IsWhitespace(s[i])
  }

  /** `s` without its leading whitespace: a suffix of `s`, the dropped prefix is all whitespace
      and what is left does not start with whitespace. */
  function TrimStart(s: string): (r: string)
    ensures |r| <= |s| && r == s[|s| - |r|..]
    ensures forall i :: 0 <= i < |s| - |r| ==> IsWhitespace(s[i])
    ensures r != [] ==> !IsWhitespace(r[0])
  {
    if s != [] && IsWhitespace(s[0]) then TrimStart(s[1..]) else s
  }

  /** `s` without its trailing whitespace: a prefix of `s`, the dropped suffix is all whitespace
      and what is left does not end with whitespace. */
  function TrimEnd(s: string): (r: string)
    ensures |r| <= |s| && r == s[..|r|]
    ensures forall i :: |r| <= i < |s| ==> IsWhitespace(s[i])
    ensures r != [] ==> !IsWhitespace(r[|r| - 1])
  {
    if s != [] && IsWhitespace(s[|s| - 1]) then TrimEnd(s[..|s| - 1]) else s
  }

  /** `String.prototype.trim`: whitespace removed from both ends. */
  function Trim(s: string): (r: string)
    ensures r == [] <==> IsBlank(s)
    ensures r != [] ==> !IsWhitespace(r[0]) && !IsWhitespace(r[|r| - 1])
  {
    var t := TrimStart(s);
    var r := TrimEnd(t);
    assert r == [] ==> IsBlank(s) by {
      if r == [] {
        forall i | 0 <= i < |s| ensures IsWhitespace(s[i]) {
          if i >= |s| - |t| {
            assert s[i] == t[i - (|s| - |t|)];
          }
        }
      }
    }
    r
  }

  /** Trimming removes only whitespace, and only at the two ends: the result is the slice of `s`
      that starts at the first and ends after the last non-whitespace character. */
  lemma TrimIsSlice(s: string)
    ensures var i := |s| - |TrimStart(s)|;
      && i + |Trim(s)| <= |s|
      && Trim(s) == s[i..i + |Trim(s)|]
      && (forall k :: 0 <= k < i ==> IsWhitespace(s[k]))
      && (forall k :: i + |Trim(s)| <= k < |s| ==> IsWhitespace(s[k]))
  {
    var t := TrimStart(s);
    var r := TrimEnd(t);
    TrimEndOfSuffix(s, |s| - |t|, t, r);
  }

  lemma TrimEndOfSuffix(s: string, i: nat, t: string, r: string)
    requires i <= |s| && t == s[i..] && r == TrimEnd(t)
    ensures i + |r| <= |s| && r == s[i..i + |r|]
    ensures forall k :: i + |r| <= k < |s| ==> IsWhitespace(s[k])
  {
    SlicesOfSuffix(s, i, |r|);
    forall k | i + |r| <= k < |s| ensures IsWhitespace(s[k]) {
      assert s[k] == t[k - i];
    }
  }

  lemma SlicesOfSuffix(s: string, i: nat, n: nat)
    requires i + n <= |s|
    ensures s[i..][..n] == s[i..i + n]
    ensures s[i..][n..] == s[i + n..]
  {
  }

  /** Trimming an already trimmed string changes nothing. */
  lemma TrimIdempotent(s: string)
    ensures Trim(Trim(s)) == Trim(s)
  {
    var r := Trim(s);
    if r != [] {
      assert TrimStart(r) == r;
      assert TrimEnd(r) == r;
    }
  }

  /** ASCII lower-casing of one character, the part of `toLowerCase` this model keeps. */
  function LowerChar(c: char): (d: char)
    ensures 'A' <= c <= 'Z' ==> 'a' <= d <= 'z' && d as int - c as int == 32
    ensures !('A' <= c <= 'Z') ==> d == c
  {
    if 'A' <= c <= 'Z' then (c as int + 32) as char else c
  }

  /** `String.prototype.toLowerCase` restricted to ASCII letters. */
  function ToLower(s: string): (r: string)
    ensures |r| == |s|
    ensures forall i :: 0 <= i < |s| ==> r[i] == LowerChar(s[i])
  {
    seq(|s|, i requires 0 <= i < |s| => LowerChar(s[i]))
  }

  /** Lower-casing twice is lower-casing once. */
  lemma ToLowerIdempotent(s: string)
    ensures ToLower(ToLower(s)) == ToLower(s)
  {
  }

  /** `needle` occurs in `hay` starting at index `i`. */
  predicate OccursAt(hay: string, needle: string, i: int)
  {
    0 <= i && i + |needle| <= |hay| && hay[i..i + |needle|] == needle
  }

  /** `String.prototype.includes`: does `needle` occur somewhere in `hay`? */
  predicate Includes(hay: string, needle: string)
    decreases |hay|
  {
    (|needle| <= |hay| && hay[..|needle|] == needle) || (hay != [] && Includes(hay[1..], needle))
  }

  /** `Includes` agrees with the definition by an occurrence index, in both directions. */
  lemma {:induction false} IncludesIff(hay: string, needle: string)
    ensures Includes(hay, needle) <==> exists i :: OccursAt(hay, needle, i)
  {
    if |needle| <= |hay| && hay[..|needle|] == needle {
      assert OccursAt(hay, needle, 0);
    } else if hay != [] {
      IncludesIff(hay[1..], needle);
      if exists i :: OccursAt(hay[1..], needle, i) {
        var i :| OccursAt(hay[1..], needle, i);
        assert hay[i + 1..i + 1 + |needle|] == hay[1..][i..i + |needle|];
        assert OccursAt(hay, needle, i + 1);
      }
      if exists i :: OccursAt(hay, needle, i) {
        var i :| OccursAt(hay, needle, i);
        assert i != 0;
        assert hay[1..][i - 1..i - 1 + |needle|] == hay[i..i + |needle|];
        assert OccursAt(hay[1..], needle, i - 1);
      }
    }
  }

  /** Every string includes the empty string. */
  lemma IncludesEmpty(hay: string)
    ensures Includes(hay, "")
  {
    assert hay[..0] == "";
  }
}

=== FILE: Wrappers.dfy ===
/** Optional values and error-carrying results shared by the modules of this model. */
module Wrappers {

  /** A value that may be absent: JavaScript's null/undefined, Java's null or an empty Optional. */
  datatype Option<+T> = None | Some(value: T)

  /** The outcome of an operation that either yields a value or fails with an error. */
  datatype Result<+T, +E> = Ok(value: T) | Err(error: E)
}
